=== FILE: README.md ===
# Among Us–style simulator: a Dafny model of its game engine

The repository holds two versions of one game engine.
- **Browser version** (`script.js`): ten bots play on a ship of fourteen rooms. Each round every living bot takes a turn:
  - crewmates report bodies, repair sabotages, do their tasks and walk along shortest paths;
  - impostors kill, vent, sabotage and stalk the crew.
  A reported body or an emergency call starts a meeting. The meeting has a discussion, a vote and an ejection, and then free play resumes. A win check closes every round.
- **Terminal version** (`among_us_sim.py`): a smaller engine with its own rules, on the same room graph.

This project models both engines as pure functions over immutable data and proves properties about them.

| module (file) | what it models |
|---|---|
| `Util` (util.dfy) | `Option`, the clamp-at-zero countdown used by every cooldown |
| `Rooms` (rooms.dfy) | the fourteen rooms, their corridors and the vents |
| `Pathfinder` (pathfinder.dfy) | `shortestPath`: the breadth-first search, its correctness proof and the next hop of `moveToward` |
| `Agents` (agents.dfy) | a bot: tasks, position log, suspicion scores, and its moves |
| `Council` (council.dfy) | a bot's statement, its reaction to others' statements, its ballot, and the tally rule |
| `SabotageRules` (sabotage.dfy) | trigger, repair and countdown of a sabotage |
| `Game` (state.dfy) | the game state, the win check and the end of the game |
| `Turns` (turns.dfy) | a crewmate's turn and an impostor's turn, with reports, emergency calls and kills |
| `Meetings` (meetings.dfy) | the meeting sub-machine: discussion, resolution, vote, back to free play |
| `Ticks` (ticks.dfy) | one round (`tick`) of the browser engine |
| `PySim` (pysim.dfy) | the terminal engine: turns, report, meeting, task progress, win state, tick, run |

How the model is built:
- **Randomness is an argument.** Each random draw becomes a value the caller passes in:
  - a coin (`chance`) is a `bool`;
  - a choice from a list (`rand`, `rng.choice`) is an index `k`, read as `xs[k % |xs|]` (`Agents.Pick`).
  
  A browser turn reads its draws from a `Dice` record. A terminal turn, vote and round read theirs from `PyTurnRoll`, `PyVoteRoll` and `PyTickRoll`. The probabilities themselves are not modelled, so every property holds for every outcome of every draw.
- **Players are roster positions.** Bots are identified by their index in the roster. In the browser version this index is the bot's `id`. The terminal version tells bots apart by their unique names.
- **Meetings take two steps.** The browser's `resolveMeeting` is asynchronous. The tick that ends a discussion only sets the resolving flag and the `meeting-resolving` phase (`Meetings.StartResolving`). Ticks are ignored until the rest of `resolveMeeting` has run (`Meetings.CompleteMeeting`). The win check of that tick therefore sees the roster from before the ejection.
- **The advisor is an argument.** Where the browser asks an external advisor, its answers are optional overrides passed in:
  - the statement a bot makes;
  - the vote it casts;
  - the list of speakers it believes.
- **Statements are abstracted.** The engine reads only two facts from a statement's text: whether it matches "saw … eliminate/kill", and the first room, in map order, whose name the text contains. A statement is exactly those two facts.
- **Suspicion scores are exact reals.** The per-round decay (×0.96, then drop scores below 0.15 in magnitude) is computed exactly.

Properties proved:
- **Pathfinding.** The breadth-first path is a shortest, repetition-free corridor walk from start to goal, and the goal is always reached. A step of `moveToward` lowers the distance to the target by exactly one.
- **Game steps.**
  - Every step of the game keeps the roster: same roles, the dead stay dead, and finished tasks stay finished.
  - A kill, a report, an emergency call, a sabotage trigger and a repair each change exactly what the source changes.
- **Meetings and wins.**
  - The browser tally ejects exactly the strict leader of the votes.
  - The terminal tally ejects the first maximum in roster order, and only with at least two votes.
  - The win checks keep their order of precedence.
- **Counterexamples.** Two concrete scenarios are proved:
  - in the terminal engine, a crewmate killed during a round still takes its turn and can finish a task;
  - in the browser engine, the win check can overwrite a sabotage win (see Findings).

## Model

| member | source | states |
|---|---|---|
| Util.CountDown | script.js:484 | a cooldown one step later: zero stays zero, otherwise it drops by exactly one |
| Rooms.LinksSymmetric | script.js:1-16 | every corridor can be walked both ways |
| Rooms.LinksIrreflexive | script.js:1-16 | no corridor leads from a room to itself |
| Rooms.VentsSymmetric | script.js:18-24 | every vent connection works both ways and leads to a different room |
| Pathfinder.ShortestPath | script.js:182-199 | `[a]` for equal endpoints; otherwise a repetition-free walk over corridors from start, and a shortest one when it ends at the goal; `[start]` only when no walk reaches the goal |
| Pathfinder.SearchCorrect | script.js:187-197 | the queue loop keeps the breadth-first invariant (queued paths are simple walks by layer, every room within distance d is seen) and so returns a correct result |
| Pathfinder.ScanCorrect | script.js:190-196 | scanning the corridors of the dequeued room keeps the invariant; the goal found from layer d is at distance d+1 |
| Pathfinder.EmptyQueueMeansUnreachable | script.js:198 | an exhausted queue means no walk reaches the goal, so `[start]` is the right answer |
| Pathfinder.ShortestPathReachesGoal | script.js:182-199 | on this ship every search ends at the goal (the corridor graph is connected) |
| Pathfinder.NextHop | script.js:381-385 | the room `moveToward` steps into: a neighbour that starts a shortest path to the target, or the current room when already there |
| Pathfinder.NextHopCloser | script.js:381-385 | one step of `moveToward` lowers the corridor distance to the target by exactly one |
| Agents.RecordRoomVisit | script.js:303-310 | the position log only grows, by at most one visit stamped with this round and room, stays free of consecutive duplicates, and ends in the current room |
| Agents.GetRoundRoom | script.js:167-175 | the current room when the log is empty, otherwise a room from the log |
| Agents.GetRoundRoomIsLatest | script.js:167-175 | on a log in round order, the answer is the last visit made by the given round (or the first visit if all are later) |
| Agents.RecordThenLookup | script.js:303-310 | recording a visit answers later lookups with the new room and leaves lookups of earlier rounds unchanged |
| Agents.FindPending | script.js:445 | the first task that is not done (and in the given room, when one is given), or none exactly when there is no such task |
| Agents.NextTaskRoom | script.js:177-180 | the room of the first unfinished task, none exactly when every task is done |
| Agents.UndoneCountZero | script.js:689-693 | a bot has no tasks left exactly when every task is done |
| Agents.DoCrewTask | script.js:444-454 | succeeds exactly when the roll succeeds and an open task is in the current room; then the first such task, and only it, is marked done, one task fewer is open, and nothing else changes |
| Agents.MarkSuspicion | script.js:392-394 | the score of the target rises by the amount (from 0 when absent); every other score is unchanged |
| Agents.Decay | script.js:721-726 | every kept score shrinks in magnitude and keeps its sign, the kept scores are all at least 0.15 in magnitude, and a score is dropped only when its decayed magnitude is below 0.15 |
| Agents.MoveToward | script.js:381-385 | only room and log change; the bot steps along a corridor one step closer to the target, or stays when already there |
| Agents.RandomWalk | script.js:387-390 | only room and log change, and the new room is a corridor neighbour |
| Agents.VentHop | script.js:506-512 | only room and log change, and the new room is a vent neighbour different from the old one |
| Council.HeuristicStatement | script.js:535-540 | a witness accuses; otherwise a bot with a score above 2 names a suspect; otherwise it claims its own current room |
| Council.Hear | script.js:601-613 | only the listener's score of the speaker changes: +0.8 or -0.25 for a kill accusation, +1.25 for a claimed room that differs from where the speaker was; own statements are ignored |
| Council.TopSuspect | script.js:547-549 | the first candidate with the highest score |
| Council.Without | script.js:544 | the candidates are the living players other than the voter, in roster order |
| Council.HeuristicVote | script.js:542-553 | a witness votes for a living killer; otherwise the vote is for the first candidate on the top score (the stable sort), which must be at least 1, or skip when every other score is below 1 or the bot abstains; on ties the lowest roster index wins |
| Council.FinalBallot | script.js:637-644 | advice "skip" gives skip; advice naming another living player gives a vote for that player; no advice, or advice naming anyone else, leaves the heuristic ballot |
| Council.Keys | script.js:647-648 | each ballot that was cast appears once in the tally |
| Council.Top | script.js:652-653 | the ballot on top of the sorted tally has the highest count, and `tie` holds exactly when another ballot has the same count |
| Council.Ejection | script.js:652-664 | someone is ejected exactly when a player's ballot is the strict leader of the tally, and then it is that player |
| SabotageRules.Trigger | script.js:396-409 | nothing changes unless no sabotage runs, the cooldown is 0 and the roll succeeds; then a fresh sabotage of the drawn kind starts and the cooldown becomes 8 |
| SabotageRules.FreshSabotageDeadline | script.js:396-409 | a fresh sabotage left alone is still running after timer-1 rounds and melts down in the round its timer reaches zero (lights after 7, reactor and O2 after 8) |
| SabotageRules.Repair | script.js:464-465 | a repair adds exactly one fix and touches nothing else |
| SabotageRules.Process | script.js:521-533 | resolved exactly when fixes reached the number needed; otherwise the timer drops by exactly one and it keeps running exactly while the timer stays above zero |
| SabotageRules.UnattendedMeltdown | script.js:529-532 | without repairs, a sabotage with timer t runs for t-1 rounds and then ends the game |
| Game.CountAlive | script.js:322-324 | zero exactly when nobody alive has that role |
| Game.AliveIds | script.js:322 | the living players' ids, in roster order |
| Game.CrewTasksLeft | script.js:689-693 | zero exactly when every living crewmate has finished every task |
| Game.EndGame | script.js:707-713 | the game is over with that winner, reason and phase; nothing else changes |
| Game.CheckWin | script.js:701-705 | no change unless a condition holds; the winner is the Impostors exactly when some live and match the crew, else the Crewmates; the reason is ImpostorsEliminated, Parity or TasksCompleted by the first condition that holds; only the end-of-game fields change |
| Game.ProcessSabotage | script.js:521-533 | no sabotage: no change; enough fixes: the sabotage is cleared; otherwise the timer drops by one and the game ends with an Impostors win exactly when it reaches zero |
| Turns.ReportBody | script.js:411-426 | the body is marked reported, a discussion with timer 3 naming the reporter and the victim opens, the sabotage is cleared; no other field changes |
| Turns.MaybeCallEmergency | script.js:428-442 | only with calls left, no sabotage, no meeting cooldown and the roll: one call is used, a discussion with timer 3 opens, the meeting cooldown becomes 8 |
| Turns.Witnessed | script.js:499-500 | a witness remembers the killer and its score of the killer rises by 12 |
| Turns.Eliminate | script.js:489-503 | the victim dies, an unreported body is added in the killer's room, the killer's cooldown becomes 3, every other living bot in the room witnesses, and no one else changes |
| Turns.BodyIn | script.js:457 | the first unreported body in the room, none exactly when there is none |
| Turns.CrewOnAlarm | script.js:463-472 | in a fix room with a successful roll, one fix is added and nobody moves; otherwise the sabotage is untouched and the bot takes one corridor along a shortest path to the fix room it picked |
| Turns.HeadFor | script.js:470 | the bot takes one corridor along a shortest path to the target, or stays once there; nobody else changes |
| Turns.CrewChores | script.js:474-480 | a finished task ends the turn with one task fewer; otherwise the bot strolls towards its next task and may call an emergency |
| Turns.CrewStroll | script.js:476-480 | the bot takes one corridor along a shortest path towards the room of its first unfinished task (or any corridor when none is left), nobody else changes, and an emergency may open a discussion |
| Turns.Stroll | script.js:476-478 | one corridor along a shortest path towards the room of the first unfinished task, or down the picked corridor when no task is left |
| Turns.CrewTurn | script.js:456-481 | a found body reported opens a discussion and clears the sabotage; during a sabotage the bot repairs in a fix room or steps towards the picked fix room, the alarm keeps running; otherwise it finishes a task here or strolls towards its next task; only this bot changes |
| Turns.CrewIn | script.js:487 | exactly the living crewmates in the room |
| Turns.CrewInSameRoster | script.js:487 | the crew in a room depends only on who is alive, who is an impostor and who is where |
| Turns.Strike | script.js:487-504 | the victim is the rolled pick among the living crew in the killer's room, a crewmate other than the killer; it dies and nobody else does; its unreported body is appended in the killer's room; the killer's cooldown becomes 3; the other living players in the room witness the killer; everyone else is unchanged |
| Turns.Kill | script.js:483-504 | the prelude then the strike: the sabotage roll is applied, and the kill is the one `Killed` describes |
| Turns.KillAfterPrelude | script.js:483-504 | the cooldown prelude leaves the crew in the room as it was, so the strike after it kills the rolled crewmate and leaves the dead alone |
| Turns.CrewRooms | script.js:514 | exactly the rooms with a living crewmate |
| Turns.ImpostorPrelude | script.js:484-485 | the impostor's cooldown ticks down and a sabotage may be triggered |
| Turns.Prowl | script.js:514-516 | only room and log change; the impostor moves along a corridor unless it is already where the crew is |
| Turns.ImpostorChase | script.js:514-518 | chase or wander, then maybe an emergency; nobody else moves |
| Turns.ImpostorRoam | script.js:506-518 | with a vent and the roll, the impostor vents and the turn ends; otherwise it chases |
| Turns.ImpostorTurn | script.js:483-519 | the sabotage roll is applied exactly as `Trigger` says; a kill happens exactly when it can: with cooldown at most 1, a living crewmate in the room and the roll there is a new body; a new body means the roll asked for a kill, and the victim, the crewmate the roll picks among the living crew in the room, is now dead and nobody else is, its unreported body lies in the killer's room, the witnesses remember the killer and the killer's cooldown is 3; a cooldown above 1 means no kill; without a kill nobody but the impostor changes; the dead are untouched |
| Meetings.Unreported | script.js:684 | exactly the bodies not yet reported |
| Meetings.StartResolving | script.js:555-558 | a meeting not yet resolving enters the resolving phase; anything else is ignored |
| Meetings.UpdateMeeting | script.js:676-687 | the meeting timer drops by one; a discussion at zero starts resolving; a vote at zero returns to free play and removes the reported bodies; players, round and alarm never change |
| Meetings.Speak | script.js:563-592 | one statement per living bot in roster order, the heuristic one unless the advisor supplied one |
| Meetings.HearAll | script.js:601-614 | a listener's score of every speaker moves by the sum of its reactions to that speaker's statements |
| Meetings.Listen | script.js:601-614 | every living listener hears every statement; the dead hear nothing |
| Meetings.CastVotes | script.js:617-649 | one ballot per living bot; every named player is alive; without advice the ballot is the heuristic one |
| Meetings.Endorse | script.js:630-634 | each mention of a player in the believed list adds 0.6 to that player's score |
| Meetings.Endorsements | script.js:628-635 | only living voters whose advisor gave a believed list change, and only in their scores |
| Meetings.Eject | script.js:658-669 | only the ejected player dies; everyone's witness memory clears and cooldown ticks down |
| Meetings.Settle | script.js:651-669 | the strict leader of the tally, if alive, dies, and nobody else does; roles, tasks and rooms stay |
| Meetings.Discuss | script.js:560-649 | statements and ballots, one per living bot; only scores change |
| Meetings.Deliberate | script.js:560-669 | the whole resolution on a roster: one statement and one ballot per living bot, then the strict leader is ejected |
| Meetings.CompleteMeeting | script.js:555-673 | a resolving meeting moves to the vote phase with timer 2, the tally and statements stored, the strict leader ejected; bodies, round and alarm unchanged |
| Meetings.MeetingTimeline | script.js:676-687 | a discussion lasts three updates, then resolves; the vote lasts two updates, then free play resumes without the reported bodies |
| Ticks.DecayAll | script.js:721-726 | every bot's scores decay and nothing else changes |
| Ticks.Refresh | script.js:718-726 | the round advances by one, both cooldowns tick down, every score is decayed and settled, nothing else changes |
| Ticks.Turn | script.js:731-732 | an impostor takes the impostor turn and a crewmate the crew turn; a living bot's turn keeps the roster, round and game state, leaves the dead untouched, and either stays in free play or opens a discussion |
| Ticks.TurnOrSkip | script.js:730-732 | a dead bot is skipped and changes nothing; a living bot takes its turn with its own roll |
| Ticks.AgentPass | script.js:729-734 | the pass read from its first bot: that bot's turn (none when dead), then the rest unless a discussion opened; the roster evolves, the dead are untouched, and free play keeps its meeting |
| Ticks.PassUpTo | script.js:729-734 | the loop read from the front: the state once the bots up to a point have had their turns, stopping at the first turn that leaves free play |
| Ticks.PassSplit | script.js:729-734 | the pass splits after any bot: the turns so far read from the front, then, unless a discussion opened, the rest of the pass |
| Ticks.AgentPassIsLoop | script.js:729-734 | the two readings of the loop agree for every state and every roll |
| Ticks.BreakIsFinal | script.js:733 | once a turn has opened a discussion, no later bot moves |
| Ticks.FreeplayAdvance | script.js:728-735 | a free-play round is the refresh, then every bot's turn in roster order until a discussion opens, then the sabotage timer |
| Ticks.Advance | script.js:718-738 | the round advances by one; the roster evolves; the game ends only in free play, by a sabotage timer, as an Impostors win; a meeting leaves the alarm alone; a free-play round is the loop of turns (Ticks.FreeplayAdvance) |
| Ticks.MeetingAdvance | script.js:718-738 | a round during a meeting refreshes the roster, runs the meeting clock and never ends the game |
| Ticks.FinishTick | script.js:740 | a game already over stays as it is; an open game with a win condition goes to the winning side; an open game is left open only when no win condition holds |
| Ticks.FinishTickAsWritten | script.js:740 | the win check runs unconditionally, as in the source: whenever a condition holds the game ends and the winner is rewritten to the side the condition names, whatever it was |
| Ticks.Tick | script.js:715-743 | nothing happens when over or resolving; otherwise one round passes, a game left open has no winner pending, a sabotage win stands, a round left open with a win condition ends with the winner the condition names, and a round with none is the result |
| Ticks.TickAsWritten | script.js:715-743 | the round as the source writes it: with no win condition after the round the result is the round itself; with one, the win check rewrites the winner to the side it names, even over a sabotage win |
| Ticks.SameRosterSameCounts | script.js:689-705 | rosters that agree on lives, roles and tasks give the same counts to the win check |
| Ticks.MeetingTickNeverEnds | script.js:736-740 | a round during a meeting never ends an open game and changes the roster only by score decay |
| Ticks.LastRoundAdvance | script.js:728-735 | in the counterexample round the sabotage timer ends the game as an Impostors win, with crewmate 1 dead |
| Ticks.SabotageWinOverwritten | script.js:735-740 | the counterexample: open before; the sabotage ends the game for the Impostors; the source's win check turns it into a Crewmates task win; the corrected tick keeps the Impostors win |
| PySim.Living | among_us_sim.py:105-106 | exactly the living players, in roster order |
| PySim.PyCountAlive | among_us_sim.py:108-112 | zero exactly when nobody alive has that role |
| PySim.MovePlayer | among_us_sim.py:114-115 | the player always moves to a corridor neighbour of its old room; nothing else changes |
| PySim.OpenHere | among_us_sim.py:118 | exactly the open tasks in the room |
| PySim.DoCrewAction | among_us_sim.py:117-122 | a change happens exactly when the roll succeeds and an open task is in the room; then exactly that task closes |
| PySim.Victims | among_us_sim.py:129 | exactly the living crewmates in the impostor's room other than itself |
| PySim.DoImpostorAction | among_us_sim.py:124-135 | with a cooldown, only the cooldown drops by one; with no cooldown, the roll and a living crewmate in the room, a kill happens: the rolled pick among the living crew in the room, now dead and nobody else, a body appended in the room, cooldown 3; without a kill no other player changes |
| PySim.PlayTurn | among_us_sim.py:193-197 | a turn moves the player along a corridor, moves nobody else, never touches other dead players, and only an impostor adds a body |
| PySim.PyBallots | among_us_sim.py:152-160 | one ballot per living player; nobody votes for themself; every named player is alive |
| PySim.Options | among_us_sim.py:152-153 | the vote keys: living players in roster order, then skip |
| PySim.FirstMax | among_us_sim.py:162 | the first key with the highest count |
| PySim.FirstTopUnique | among_us_sim.py:162 | the first-maximum rule picks exactly the player that is the first top |
| PySim.FirstMaxIsFirstTop | among_us_sim.py:162 | when the first maximum is a player, that player is the first top |
| PySim.Verdict | among_us_sim.py:162-170 | someone is ejected exactly when a player is the first maximum ahead of skip with at least two votes |
| PySim.MeetingVerdict | among_us_sim.py:147-170 | the ejected player, if any, is alive |
| PySim.PyMeeting | among_us_sim.py:147-172 | two or fewer alive: nothing changes, bodies included; otherwise at most the verdict player dies and the bodies are cleared |
| PySim.MaybeReport | among_us_sim.py:137-145 | only the first body counts, and a meeting needs a living player in its room and the roll |
| PySim.PlayAll | among_us_sim.py:193-197 | the turns of the snapshot keep the roster; each player of an increasing snapshot moves along one corridor; a player outside the snapshot keeps its room and, when dead, is untouched |
| PySim.MovesCompose | among_us_sim.py:193-197 | one player's corridor move followed by the rest of the snapshot's turns is the snapshot's turns from that player on |
| PySim.PyTick | among_us_sim.py:191-199 | the round advances by one, the roster evolves, everyone alive at the start moves along one corridor, and players dead at the start are untouched |
| PySim.RoundMoved | among_us_sim.py:191-199 | turns over the snapshot of the living, followed by a report that moves nobody, move every living player along a corridor and leave the dead alone |
| PySim.TaskProgress | among_us_sim.py:174-177 | done never exceeds total, and they are equal exactly when every crewmate, dead or alive, has finished every task |
| PySim.WinState | among_us_sim.py:179-189 | Crewmates when no impostor lives, else Impostors at parity, else Crewmates exactly when all crew tasks are done |
| PySim.Run | among_us_sim.py:201-215 | stops with a winner that the win state confirms, or at the round limit; the roster evolves |
| PySim.DeadStillPlay | among_us_sim.py:191-199 | a crewmate killed earlier in the round still moves and finishes a task, and that task counts for the crew |

## Left out

- Rendering, animation and the user interface (`render`, `drawBoard`, `drawBean`, `syncPlayerAnimationTargets`, button handlers): presentation only.
- The external advisor (`callBotLLM`, its configuration, local storage): network and browser I/O. Its answers appear only as the optional `said`, `advice` and `believed` arguments of `Meetings.CompleteMeeting`.
- Timers (`setInterval`, the pause switch) and the asynchronous plumbing of `resolveMeeting`: the two halves are `Meetings.StartResolving` and `Meetings.CompleteMeeting`, run as separate steps.
- Logs, memories, `routeHistory` and `visitCounts`: text for display and for the advisor; no game rule reads them. Only the position-log part of `recordRoomVisit` is modelled.
- Statement text: regex and substring matching become the two facts the engine reads.
- Names and personalities: the personality only selects probabilities, which are not modelled.
- Setup and task generation (`setup`, `makeTasks`, `_setup`, `_make_tasks`): random initial states. Every property holds for any initial state.
- Probabilities: each random draw is a parameter, and nothing is said about how likely an outcome is.
- Floating point: suspicion scores are exact reals. Rounding of `*0.96` is not modelled.
- The terminal engine's `suspicion` field: no rule reads or writes it.
- The terminal engine's `main`, its argument parsing and its printing.
- Agents.Decay: states how scores shrink and when they are dropped, not the exact factor 0.96 of each kept score.
- Turns.Prowl: states that the impostor steps along a corridor, not which room it heads for.
- PySim.Run: states how the loop stops and that the roster evolves, not the sequence of rounds in between.

## Findings

| source | as written | input that shows it | evidently intended | confidence | as-written member | corrected member |
|---|---|---|---|---|---|---|
| script.js:735-740 | `tick` calls `checkWin` after `processSabotage` even when the sabotage timer has just ended the game, so a win condition that also holds overwrites the Impostors' sabotage win | round 5, lights out with timer 1 and no fixes. Impostor 0 and crewmate 1 are in Electrical; crewmate 1 holds the crew's only unfinished task. Crewmates 2 and 3 are in Admin. The impostor kills crewmate 1 and every other roll fails. The sabotage ends the game for the Impostors, then `checkWin` finds no living crewmate with tasks left and declares a Crewmates task win | a game ended by the sabotage timer stays an Impostors win; the win check runs only while the game is open | medium, not executed | Ticks.TickAsWritten | Ticks.Tick |

=== FILE: agents.dfy ===
/**
 * One bot of the browser engine: its chores, its position log, its suspicion
 * scores, and the moves that touch a single player (`recordRoomVisit`,
 * `getRoundRoom`, `nextTaskRoom`, `doCrewTask`, `markSuspicion`,
 * `moveToward`, `randomWalk`, the vent hop, and the per-tick suspicion decay).
 *
 * A player's id is its index in the roster, so it is not stored here.
 * Suspicion scores are exact reals where the engine uses doubles.
 */
module Agents {
  import opened Util
  import opened Rooms
  import opened Pathfinder

  datatype Personality = Aggressive | Careful | Social | Logical

  /** A chore; its display name plays no part in the rules. */
  datatype Task = Task(room: Room, done: bool)

  /** A position-log entry: from `round` on, the player was in `room`. */
  datatype Visit = Visit(round: int, room: Room)

  datatype Player = Player(
    alive: bool,
    impostor: bool,
    room: Room,
    killCooldown: nat,
    emergencyLeft: nat,
    tasks: seq<Task>,
    suspicion: map<nat, real>,
    positionLog: seq<Visit>,
    seenKillBy: Option<nat>,
    personality: Personality)

  // ---------------------------------------------------------------------
  // Position log

  /** The log never holds the same room twice in a row. */
  predicate Deduplicated(log: seq<Visit>) {
    forall i :: 0 <= i < |log| - 1 ==> log[i].room != log[i + 1].room
  }

  /** No entry of the log is later than `round`. */
  predicate LoggedBy(log: seq<Visit>, round: int) {
    forall i :: 0 <= i < |log| ==> log[i].round <= round
  }

  /** `recordRoomVisit` (its position-log part): log the current room unless the log already ends there. */
  function RecordRoomVisit(p: Player, round: int): (q: Player)
    ensures q == p.(positionLog := q.positionLog)
    ensures p.positionLog <= q.positionLog && |q.positionLog| <= |p.positionLog| + 1
    ensures |q.positionLog| > 0 && q.positionLog[|q.positionLog| - 1].room == p.room
    ensures |q.positionLog| == |p.positionLog| + 1 ==> q.positionLog[|p.positionLog|] == Visit(round, p.room)
    ensures Deduplicated(p.positionLog) ==> Deduplicated(q.positionLog)
    ensures LoggedBy(p.positionLog, round) ==> LoggedBy(q.positionLog, round)
  {
    var log := p.positionLog;
    if |log| == 0 || log[|log| - 1].room != p.room then
      p.(positionLog := log + [Visit(round, p.room)])
    else
      p
  }

  /**
   * `getRoundRoom`: start from the first entry and walk forward while the
   * entries are not later than `round`; with an empty log, the current room.
   */
  function GetRoundRoom(p: Player, round: int): (r: Room)
    ensures |p.positionLog| == 0 ==> r == p.room
    ensures |p.positionLog| > 0 ==> exists i :: 0 <= i < |p.positionLog| && r == p.positionLog[i].room
  {
    if |p.positionLog| == 0 then p.room
    else RoomAsOf(p.positionLog, round, 0)
  }

  /** The scan of `getRoundRoom` from entry `i` on, `last` being entry `i - 1` (or entry 0 at the start). */
  function RoomAsOf(log: seq<Visit>, round: int, i: nat): (r: Room)
    requires 0 < |log| && i <= |log|
    ensures exists k :: 0 <= k < |log| && r == log[k].room
    decreases |log| - i
  {
    var last := if i == 0 then 0 else i - 1;
    if i == |log| || log[i].round > round then log[last].room
    else RoomAsOf(log, round, i + 1)
  }

  lemma {:induction false} RoomAsOfSkipsTo(log: seq<Visit>, round: int, i: nat, n: nat)
    requires 0 < |log| && i <= n <= |log|
    requires forall j :: i <= j < n ==> log[j].round <= round
    ensures 0 < n ==> RoomAsOf(log, round, i) == RoomAsOf(log, round, n)
    ensures n == 0 ==> RoomAsOf(log, round, i) == RoomAsOf(log, round, 0)
    decreases n - i
  {
    if i < n {
      RoomAsOfSkipsTo(log, round, i + 1, n);
    }
  }

  /**
   * With a log ordered by round, `getRoundRoom` answers with the latest entry
   * not later than `round`, or with the first entry when every entry is later.
   */
  lemma GetRoundRoomIsLatest(p: Player, round: int)
    requires |p.positionLog| > 0
    requires forall i, j :: 0 <= i < j < |p.positionLog| ==> p.positionLog[i].round <= p.positionLog[j].round
    ensures exists i :: (0 <= i < |p.positionLog|
                         && GetRoundRoom(p, round) == p.positionLog[i].room
                         && (i == 0 || p.positionLog[i].round <= round)
                         && forall j :: i < j < |p.positionLog| ==> p.positionLog[j].round > round)
  {
    var log := p.positionLog;
    var n := 0;
    while n < |log| && log[n].round <= round
      invariant n <= |log| && forall j :: 0 <= j < n ==> log[j].round <= round
    {
      n := n + 1;
    }
    RoomAsOfSkipsTo(log, round, 0, n);
    var i := if n == 0 then 0 else n - 1;
    assert GetRoundRoom(p, round) == log[i].room;
    forall j | i < j < |log|
      ensures log[j].round > round
    {
      assert n <= j && log[n].round > round;
      if n < j {
        assert log[n].round <= log[j].round;
      }
    }
  }

  /**
   * Recording a visit at round `now` does not rewrite history: a lookup for an
   * earlier round answers as before, and a lookup for `now` or later gives
   * the room just recorded.
   */
  lemma RecordThenLookup(p: Player, now: int, round: int)
    requires LoggedBy(p.positionLog, now)
    ensures GetRoundRoom(RecordRoomVisit(p, now), round)
         == if round >= now then p.room else GetRoundRoom(p, round)
  {
    var q := RecordRoomVisit(p, now);
    if |p.positionLog| > 0 {
      if round >= now {
        RoomAsOfSkipsTo(q.positionLog, round, 0, |q.positionLog|);
      } else if |q.positionLog| == |p.positionLog| + 1 {
        LookupBeforeAppend(p.positionLog, q.positionLog, round);
      }
    }
  }

  /** Appending an entry later than `round` leaves the scan for `round` where it was. */
  lemma LookupBeforeAppend(log: seq<Visit>, longer: seq<Visit>, round: int)
    requires 0 < |log| && |longer| == |log| + 1 && log <= longer
    requires longer[|log|].round > round
    ensures RoomAsOf(longer, round, 0) == RoomAsOf(log, round, 0)
  {
    var n := |log|;
    var k := 0;
    while k < n && log[k].round <= round
      invariant k <= n && forall j :: 0 <= j < k ==> log[j].round <= round
    {
      k := k + 1;
    }
    RoomAsOfSkipsTo(log, round, 0, k);
    RoomAsOfSkipsTo(longer, round, 0, k);
    assert k == 0 || longer[k - 1] == log[k - 1];
    assert k < n ==> longer[k] == log[k];
  }

  // ---------------------------------------------------------------------
  // Chores

  /** A task still to do, in room `at` when that is given. */
  predicate Pending(t: Task, at: Option<Room>) {
    !t.done && (at.None? || t.room == at.value)
  }

  /** `tasks.find(...)`: the index of the first pending task. */
  function FindPending(tasks: seq<Task>, at: Option<Room>): (r: Option<nat>)
    ensures r.None? <==> forall i :: 0 <= i < |tasks| ==> !Pending(tasks[i], at)
    ensures r.Some? ==> r.value < |tasks| && Pending(tasks[r.value], at)
    ensures r.Some? ==> forall j :: 0 <= j < r.value ==> !Pending(tasks[j], at)
  {
    if |tasks| == 0 then None
    else if Pending(tasks[0], at) then Some(0)
    else
      match FindPending(tasks[1..], at)
      case None => None
      case Some(k) => Some(k + 1)
  }

  function UndoneCount(tasks: seq<Task>): (n: nat)
    ensures n <= |tasks|
  {
    if |tasks| == 0 then 0
    else (if tasks[0].done then 0 else 1) + UndoneCount(tasks[1..])
  }

  lemma {:induction false} UndoneCountZero(tasks: seq<Task>)
    ensures UndoneCount(tasks) == 0 <==> forall i :: 0 <= i < |tasks| ==> tasks[i].done
  {
    if |tasks| > 0 {
      UndoneCountZero(tasks[1..]);
      assert forall i :: 1 <= i < |tasks| ==> tasks[i] == tasks[1..][i - 1];
    }
  }

  /** Ticking off one pending task lowers the count of open tasks by exactly one. */
  lemma {:induction false} UndoneCountFinish(tasks: seq<Task>, i: nat)
    requires i < |tasks| && !tasks[i].done
    ensures UndoneCount(tasks[i := tasks[i].(done := true)]) + 1 == UndoneCount(tasks)
  {
    if i > 0 {
      UndoneCountFinish(tasks[1..], i - 1);
      assert tasks[i := tasks[i].(done := true)][1..] == tasks[1..][i - 1 := tasks[i].(done := true)];
    } else {
      assert tasks[i := tasks[i].(done := true)][1..] == tasks[1..];
    }
  }

  /** `nextTaskRoom`: the room of the first unfinished task, if any. */
  function NextTaskRoom(p: Player): (r: Option<Room>)
    ensures r.None? <==> UndoneCount(p.tasks) == 0
    ensures r.Some? ==> exists i :: 0 <= i < |p.tasks| && !p.tasks[i].done && p.tasks[i].room == r.value
                                   && forall j :: 0 <= j < i ==> p.tasks[j].done
  {
    UndoneCountZero(p.tasks);
    match FindPending(p.tasks, None)
    case None => None
    case Some(i) => Some(p.tasks[i].room)
  }

  /** Only the `done` flags may change, and only from false to true. */
  predicate TasksAdvance(before: seq<Task>, after: seq<Task>) {
    && |after| == |before|
    && forall i :: 0 <= i < |before| ==> after[i].room == before[i].room && (before[i].done ==> after[i].done)
  }

  /**
   * `doCrewTask`: finish the first open task in the current room when the
   * completion roll succeeds; report whether a task was finished.
   */
  function DoCrewTask(p: Player, succeed: bool): (res: (Player, bool))
    ensures res.1 <==> succeed && exists i :: 0 <= i < |p.tasks| && Pending(p.tasks[i], Some(p.room))
    ensures !res.1 ==> res.0 == p
    ensures res.0 == p.(tasks := res.0.tasks)
    ensures TasksAdvance(p.tasks, res.0.tasks)
    ensures res.1 ==> UndoneCount(res.0.tasks) + 1 == UndoneCount(p.tasks)
    ensures res.1 ==> && FindPending(p.tasks, Some(p.room)).Some?
                      && var k := FindPending(p.tasks, Some(p.room)).value;
                         res.0.tasks == p.tasks[k := p.tasks[k].(done := true)]
  {
    match FindPending(p.tasks, Some(p.room))
    case None => (p, false)
    case Some(i) =>
      if !succeed then (p, false)
      else
        UndoneCountFinish(p.tasks, i);
        (p.(tasks := p.tasks[i := p.tasks[i].(done := true)]), true)
  }

  // ---------------------------------------------------------------------
  // Suspicion

  /** A missing entry reads as 0, as `suspicion[id] || 0` does. */
  function Score(p: Player, id: nat): real {
    if id in p.suspicion then p.suspicion[id] else 0.0
  }

  /** `markSuspicion`: add `amount` to the observer's score for `target`. */
  function MarkSuspicion(p: Player, target: nat, amount: real): (q: Player)
    ensures q == p.(suspicion := q.suspicion)
    ensures q.suspicion.Keys == p.suspicion.Keys + {target}
    ensures Score(q, target) == Score(p, target) + amount
    ensures forall id :: id != target ==> Score(q, id) == Score(p, id)
  {
    p.(suspicion := p.suspicion[target := Score(p, target) + amount])
  }

  function Abs(x: real): real {
    if x < 0.0 then -x else x
  }

  /** Every stored score is at least 0.15 in magnitude. */
  predicate Settled(m: map<nat, real>) {
    forall k :: k in m ==> Abs(m[k]) >= 0.15
  }

  /** The per-tick decay: scale every score by 0.96 and drop those now below 0.15 in magnitude. */
  function Decay(m: map<nat, real>): (r: map<nat, real>)
    ensures r.Keys <= m.Keys
    ensures Settled(r)
    ensures forall k :: k in m && k !in r ==> Abs(m[k]) * 0.96 < 0.15
    ensures forall k :: k in r ==> Abs(r[k]) < Abs(m[k]) && (r[k] < 0.0 <==> m[k] < 0.0)
  {
    map k | k in m && Abs(m[k] * 0.96) >= 0.15 :: m[k] * 0.96
  }

  // ---------------------------------------------------------------------
  // Movement

  /** Only the player's room and position log differ. */
  predicate Moved(p: Player, q: Player) {
    q == p.(room := q.room, positionLog := q.positionLog)
  }

  /** `moveToward`: one corridor along the shortest path, then log the visit. */
  function MoveToward(p: Player, target: Room, round: int): (q: Player)
    ensures Moved(p, q)
    ensures q == RecordRoomVisit(p.(room := q.room), round)
    ensures p.room == target ==> q.room == target
    ensures p.room != target ==> Linked(p.room, q.room) && Distance(q.room, target) + 1 == Distance(p.room, target)
  {
    var n := NextHop(p.room, target);
    assert p.room != target ==> Distance(n, target) + 1 == Distance(p.room, target) by {
      if p.room != target {
        NextHopCloser(p.room, target);
      }
    }
    RecordRoomVisit(p.(room := n), round)
  }

  /** From `from` to `to` is one corridor closer to `target`, or staying put once there. */
  predicate StepToward(from: Room, to: Room, target: Room) {
    && (from == target ==> to == target)
    && (from != target ==> Linked(from, to) && Distance(to, target) + 1 == Distance(from, target))
  }

  /** The `k`-th choice out of a non-empty list, as `rand(arr)` picks `arr[floor(u * len)]`. */
  function Pick<T>(xs: seq<T>, k: nat): (x: T)
    requires |xs| > 0
    ensures x in xs
  {
    xs[k % |xs|]
  }

  lemma EveryRoomHasCorridor(r: Room)
    ensures |Links(r)| > 0
  {
  }

  /** `randomWalk`: through one corridor chosen by `k`, then log the visit. */
  function RandomWalk(p: Player, k: nat, round: int): (q: Player)
    ensures Moved(p, q)
    ensures q == RecordRoomVisit(p.(room := q.room), round)
    ensures Linked(p.room, q.room)
  {
    EveryRoomHasCorridor(p.room);
    RecordRoomVisit(p.(room := Pick(Links(p.room), k)), round)
  }

  /** The impostor's vent hop: to a vent partner chosen by `k`, then log the visit. */
  function VentHop(p: Player, k: nat, round: int): (q: Player)
    requires |Vents(p.room)| > 0
    ensures Moved(p, q)
    ensures q == RecordRoomVisit(p.(room := q.room), round)
    ensures q.room in Vents(p.room) && q.room != p.room
  {
    var r := Pick(Vents(p.room), k);
    VentsSymmetric(p.room, r);
    RecordRoomVisit(p.(room := r), round)
  }
}

=== FILE: council.dfy ===
/**
 * The rules of a meeting in the browser engine, one bot at a time: what a
 * bot says (`heuristicStatement`), how a listener reacts to a statement, how
 * a bot votes (`heuristicVote`, optionally overridden by advice), and the
 * tally that decides the ejection.
 *
 * Statements are free text in the engine, but the engine only ever reads two
 * things out of one: whether it matches "saw … eliminate" / "saw … kill", and
 * the first room, in map order, whose name the text contains. A statement is
 * modelled as exactly those.
 */
module Council {
  import opened Util
  import opened Rooms
  import opened Agents

  datatype Statement = Statement(speaker: nat, accusesKill: bool, claimedRoom: Option<Room>)

  /**
   * `heuristicStatement`: a witness names the killer; a bot with some score
   * above 2 names its top suspect; anyone else says which room they are in.
   */
  function HeuristicStatement(p: Player, self: nat): (s: Statement)
    ensures s.speaker == self
    ensures s.accusesKill <==> p.seenKillBy.Some?
    ensures s.claimedRoom.Some? <==> p.seenKillBy.None? && forall k :: k in p.suspicion ==> p.suspicion[k] <= 2.0
    ensures s.claimedRoom.Some? ==> s.claimedRoom.value == p.room
  {
    if p.seenKillBy.Some? then Statement(self, true, None)
    else if exists k :: k in p.suspicion && p.suspicion[k] > 2.0 then Statement(self, false, None)
    else Statement(self, false, Some(p.room))
  }

  /** What a listener adds to its score of the speaker when hearing `s`. */
  function Reaction(s: Statement, speakerRoomThen: Room, believe: bool): real {
    (if s.accusesKill then (if believe then 0.8 else -0.25) else 0.0)
    + (if s.claimedRoom.Some? && s.claimedRoom.value != speakerRoomThen then 1.25 else 0.0)
  }

  /**
   * A listener hears one statement: a kill accusation moves its score of the
   * speaker by +0.8 or -0.25 (the coin `believe`), and a claimed room that
   * differs from where the speaker was last round adds 1.25. A bot does not
   * react to its own statement.
   */
  function Hear(listener: Player, self: nat, s: Statement, speakerRoomThen: Room, believe: bool): (q: Player)
    ensures q == listener.(suspicion := q.suspicion)
    ensures forall id :: id != s.speaker ==> Score(q, id) == Score(listener, id)
    ensures s.speaker == self ==> q == listener
    ensures s.speaker != self ==> Score(q, s.speaker) == Score(listener, s.speaker) + Reaction(s, speakerRoomThen, believe)
    ensures s.speaker != self && !s.accusesKill && s.claimedRoom == Some(speakerRoomThen) ==> q == listener
  {
    if s.speaker == self then listener
    else
      var l1 := if s.accusesKill then MarkSuspicion(listener, s.speaker, if believe then 0.8 else -0.25) else listener;
      if s.claimedRoom.Some? && s.claimedRoom.value != speakerRoomThen then MarkSuspicion(l1, s.speaker, 1.25)
      else l1
  }

  datatype Ballot = Skip | For(id: nat)

  /** The position of the first of `cands` with the highest score, as a stable descending sort puts first. */
  function TopSuspect(p: Player, cands: seq<nat>): (k: nat)
    requires |cands| > 0
    ensures k < |cands|
    ensures forall j :: 0 <= j < |cands| ==> Score(p, cands[j]) <= Score(p, cands[k])
    ensures forall j :: 0 <= j < k ==> Score(p, cands[j]) < Score(p, cands[k])
  {
    var n := |cands|;
    if n == 1 then 0
    else
      var front := cands[..n - 1];
      var k := TopSuspect(p, front);
      assert forall j :: 0 <= j < n - 1 ==> cands[j] == front[j];
      if Score(p, cands[n - 1]) > Score(p, cands[k]) then n - 1 else k
  }

  /** `ids` with `x` filtered out, the rest kept in order. */
  function Without(ids: seq<nat>, x: nat): (r: seq<nat>)
    ensures forall y :: y in r <==> y in ids && y != x
    ensures |r| <= |ids|
    ensures Increasing(ids) ==> Increasing(r)
  {
    if |ids| == 0 then []
    else if ids[0] == x then Without(ids[1..], x)
    else
      var rest := Without(ids[1..], x);
      assert Increasing(ids) ==> Increasing([ids[0]] + rest) by {
        if Increasing(ids) {
          assert forall k :: 0 <= k < |rest| ==> rest[k] in ids[1..];
          assert forall j :: 1 <= j < |ids| ==> ids[0] < ids[j];
        }
      }
      [ids[0]] + rest
  }

  /** Strictly increasing, as the roster indices of the living are. */
  predicate Increasing(ids: seq<nat>) {
    forall a, b :: 0 <= a < b < |ids| ==> ids[a] < ids[b]
  }

  /** The bot saw a kill and the killer is still among the living. */
  predicate WitnessOf(p: Player, alive: seq<nat>) {
    p.seenKillBy.Some? && p.seenKillBy.value in alive
  }

  /**
   * `heuristicVote`: a witness whose killer is still alive votes for the
   * killer; otherwise the bot votes for its top suspect among the other
   * living players, unless that score is below 1 or it abstains.
   */
  function HeuristicVote(p: Player, self: nat, alive: seq<nat>, abstain: bool): (b: Ballot)
    ensures WitnessOf(p, alive) ==> b == For(p.seenKillBy.value)
    ensures b.For? ==> b.id in alive
    ensures !WitnessOf(p, alive) && b.For? ==>
      && b.id != self && !abstain && Score(p, b.id) >= 1.0
      && forall c :: c in alive && c != self ==> Score(p, c) <= Score(p, b.id)
    ensures !WitnessOf(p, alive) && !abstain && b == Skip ==>
      forall c :: c in alive && c != self ==> Score(p, c) < 1.0
    ensures !WitnessOf(p, alive) && b.For? ==> FirstOnTop(p, Without(alive, self), b.id)
    ensures !WitnessOf(p, alive) && b.For? && Increasing(alive) ==>
      forall c :: c in alive && c != self && c < b.id ==> Score(p, c) < Score(p, b.id)
  {
    if WitnessOf(p, alive) then For(p.seenKillBy.value)
    else
      var cands := Without(alive, self);
      if |cands| == 0 then Skip
      else
        var k := TopSuspect(p, cands);
        var best := cands[k];
        assert Increasing(alive) ==> forall c :: c in cands && c < best ==> Score(p, c) < Score(p, best) by {
          if Increasing(alive) {
            forall c | c in cands && c < best
              ensures Score(p, c) < Score(p, best)
            {
              var j :| 0 <= j < |cands| && cands[j] == c;
              assert j < k;
            }
          }
        }
        if Score(p, best) < 1.0 || abstain then Skip else For(best)
  }

  /**
   * `x` is the first of `cands` on the top score: the stable sort of the
   * engine puts it at the front.
   */
  predicate FirstOnTop(p: Player, cands: seq<nat>, x: nat) {
    exists k :: 0 <= k < |cands| && cands[k] == x
      && (forall j :: 0 <= j < |cands| ==> Score(p, cands[j]) <= Score(p, x))
      && (forall j :: 0 <= j < k ==> Score(p, cands[j]) < Score(p, x))
  }

  /** An external advisor's vote, when one answered. */
  datatype Advice = NoAdvice | AdviseSkip | AdviseFor(id: nat)

  /**
   * Advice overrides the heuristic ballot when it says skip, or when it names
   * a living player other than the voter; anything else is ignored.
   */
  function FinalBallot(heuristic: Ballot, advice: Advice, self: nat, alive: seq<nat>): (b: Ballot)
    ensures b == heuristic || b == Skip || (advice.AdviseFor? && b == For(advice.id))
    ensures b.For? && b != heuristic ==> b.id in alive && b.id != self
    ensures advice == AdviseSkip ==> b == Skip
    ensures advice.AdviseFor? && advice.id in alive && advice.id != self ==> b == For(advice.id)
    ensures advice == NoAdvice || (advice.AdviseFor? && !(advice.id in alive && advice.id != self)) ==> b == heuristic
  {
    match advice
    case NoAdvice => heuristic
    case AdviseSkip => Skip
    case AdviseFor(id) => if id in alive && id != self then For(id) else heuristic
  }

  // ---------------------------------------------------------------------
  // Tally

  /**
   * `b` is strictly ahead of every other ballot: the only way the engine's
   * sorted tally can have `b` on top without a tie.
   */
  predicate StrictLeader(votes: multiset<Ballot>, b: Ballot) {
    votes[b] > 0 && forall c :: c in votes && c != b ==> votes[c] < votes[b]
  }

  /** The distinct ballots of `votes`, each once: the keys of the engine's vote object (their order does not affect the ejection). */
  function Keys(votes: seq<Ballot>): (ks: seq<Ballot>)
    ensures forall b :: b in ks <==> b in votes
    ensures forall i, j :: 0 <= i < j < |ks| ==> ks[i] != ks[j]
  {
    if |votes| == 0 then []
    else
      var rest := Keys(votes[..|votes| - 1]);
      var b := votes[|votes| - 1];
      assert votes == votes[..|votes| - 1] + [b];
      if b in rest then rest else rest + [b]
  }

  /**
   * The head of the tally sorted by count, and whether the runner-up has the
   * same count (the engine's `tie`).
   */
  function Top(keys: seq<Ballot>, votes: multiset<Ballot>): (r: (Ballot, bool))
    requires |keys| > 0
    requires forall i, j :: 0 <= i < j < |keys| ==> keys[i] != keys[j]
    ensures r.0 in keys
    ensures forall k :: k in keys ==> votes[k] <= votes[r.0]
    ensures r.1 <==> exists k :: k in keys && k != r.0 && votes[k] == votes[r.0]
  {
    if |keys| == 1 then (keys[0], false)
    else
      var front := keys[..|keys| - 1];
      var k := keys[|keys| - 1];
      assert keys == front + [k];
      var (b, tied) := Top(front, votes);
      if votes[k] > votes[b] then
        (k, false)
      else if votes[k] == votes[b] then
        (b, true)
      else
        (b, tied)
  }

  /**
   * The ejection rule of `resolveMeeting`: nobody when no votes were cast,
   * when the top two counts tie, or when skip is on top; otherwise the
   * player on top.
   */
  function Ejection(votes: seq<Ballot>): (r: Option<nat>)
    ensures r.Some? ==> StrictLeader(multiset(votes), For(r.value))
    ensures r.None? ==> forall x :: !StrictLeader(multiset(votes), For(x))
  {
    if |votes| == 0 then None
    else
      var (b, tied) := Top(Keys(votes), multiset(votes));
      if tied || b == Skip then None
      else Some(b.id)
  }
}

=== FILE: meetings.dfy ===
/**
 * The meeting sub-machine of the browser engine: `updateMeeting` counts the
 * meeting timer down, and `resolveMeeting` runs the discussion and the vote.
 *
 * `resolveMeeting` is asynchronous in the engine: the tick that ends the
 * discussion only gets as far as flagging the meeting as resolving (phase
 * `meeting-resolving`), and the rest completes later, between ticks, while
 * ticks are ignored. `StartResolving` is the first part and `CompleteMeeting`
 * the rest.
 */
module Meetings {
  import opened Util
  import opened Rooms
  import opened Agents
  import opened Council
  import opened Game

  predicate InMeeting(ph: Phase) {
    ph == MeetingDiscussion || ph == MeetingResolving || ph == MeetingVote
  }

  /** The bodies not yet reported, in their original order. */
  function Unreported(bodies: seq<Body>): (r: seq<Body>)
    ensures forall b :: b in r <==> b in bodies && !b.reported
    ensures |r| <= |bodies|
  {
    if |bodies| == 0 then []
    else (if bodies[0].reported then [] else [bodies[0]]) + Unreported(bodies[1..])
  }

  /** The synchronous start of `resolveMeeting`. */
  function StartResolving(g: GameState): (r: GameState)
    ensures g.meeting.None? || g.resolving ==> r == g
    ensures g.meeting.Some? && !g.resolving ==> r == g.(resolving := true, phase := MeetingResolving)
  {
    if g.meeting.None? || g.resolving then g
    else g.(resolving := true, phase := MeetingResolving)
  }

  /**
   * `updateMeeting`: one round off the meeting timer; at 0 or below, a
   * discussion moves on to resolving, and a vote ends the meeting, back to
   * freeplay with the reported bodies cleared away.
   */
  function UpdateMeeting(g: GameState): (r: GameState)
    ensures g.meeting.None? ==> r == g
    ensures g.meeting.Some? ==> r.meeting.None? || r.meeting == Some(g.meeting.value.(timer := g.meeting.value.timer - 1))
    ensures g.meeting.Some? && g.meeting.value.timer > 1 ==> r == g.(meeting := r.meeting)
    ensures g.meeting.Some? && g.meeting.value.timer <= 1 && g.phase == MeetingDiscussion && !g.resolving ==>
      r.phase == MeetingResolving && r.resolving
    ensures g.meeting.Some? && g.meeting.value.timer <= 1 && g.phase == MeetingVote ==>
      r.phase == Freeplay && r.meeting.None? && r.bodies == Unreported(g.bodies)
    ensures r.players == g.players && r.round == g.round && r.gameOver == g.gameOver && r.alarm == g.alarm
  {
    match g.meeting
    case None => g
    case Some(m) =>
      var g1 := g.(meeting := Some(m.(timer := m.timer - 1)));
      if g.phase == MeetingDiscussion && m.timer - 1 <= 0 then
        StartResolving(g1)
      else if g.phase == MeetingVote && m.timer - 1 <= 0 then
        g1.(phase := Freeplay, meeting := None, bodies := Unreported(g.bodies))
      else
        g1
  }

  // ---------------------------------------------------------------------
  // Discussion

  /** Everybody alive speaks once, in roster order; an advisor's statement replaces the heuristic one. */
  function Speak(ps: seq<Player>, alive: seq<nat>, said: map<nat, Statement>): (ss: seq<Statement>)
    requires forall k :: 0 <= k < |alive| ==> alive[k] < |ps|
    ensures |ss| == |alive|
    ensures forall k :: 0 <= k < |alive| ==> ss[k].speaker == alive[k]
    ensures forall k :: 0 <= k < |alive| && alive[k] !in said ==> ss[k] == HeuristicStatement(ps[alive[k]], alive[k])
  {
    seq(|alive|, k requires 0 <= k < |alive| =>
      if alive[k] in said then said[alive[k]].(speaker := alive[k])
      else HeuristicStatement(ps[alive[k]], alive[k]))
  }

  /**
   * The round whose room a listener checks a claim against: the previous
   * round, but never before round 1.
   */
  function CheckedRound(round: int): int {
    if round - 1 < 1 then 1 else round - 1
  }

  /** Whether `listener` believes the kill accusation of `speaker`: the 0.56 coin. */
  predicate Believes(coins: set<(nat, nat)>, listener: nat, speaker: nat) {
    (listener, speaker) in coins
  }

  /** What listener `self` adds to its score of `id` over statements `ss`: the sum of the reactions. */
  function Reactions(ps: seq<Player>, ss: seq<Statement>, self: nat, id: nat, round: int, coins: set<(nat, nat)>): real
    requires forall k :: 0 <= k < |ss| ==> ss[k].speaker < |ps|
  {
    if |ss| == 0 then 0.0
    else
      var s := ss[0];
      (if s.speaker == id && id != self
       then Reaction(s, GetRoundRoom(ps[s.speaker], CheckedRound(round)), Believes(coins, self, s.speaker))
       else 0.0)
      + Reactions(ps, ss[1..], self, id, round, coins)
  }

  /** Listener `self` hears every statement in turn. */
  function HearAll(l: Player, self: nat, ps: seq<Player>, ss: seq<Statement>, round: int, coins: set<(nat, nat)>): (q: Player)
    requires forall k :: 0 <= k < |ss| ==> ss[k].speaker < |ps|
    ensures q == l.(suspicion := q.suspicion)
    ensures forall id :: Score(q, id) == Score(l, id) + Reactions(ps, ss, self, id, round, coins)
    decreases |ss|
  {
    if |ss| == 0 then l
    else
      var s := ss[0];
      var l1 := Hear(l, self, s, GetRoundRoom(ps[s.speaker], CheckedRound(round)), Believes(coins, self, s.speaker));
      HearAll(l1, self, ps, ss[1..], round, coins)
  }

  /** Every living player hears the whole discussion; the dead hear nothing. */
  function Listen(ps: seq<Player>, ss: seq<Statement>, round: int, coins: set<(nat, nat)>): (qs: seq<Player>)
    requires forall k :: 0 <= k < |ss| ==> ss[k].speaker < |ps|
    ensures |qs| == |ps|
    ensures forall j :: 0 <= j < |ps| ==> qs[j] == ps[j].(suspicion := qs[j].suspicion)
    ensures forall j, id :: 0 <= j < |ps| && ps[j].alive ==>
      Score(qs[j], id) == Score(ps[j], id) + Reactions(ps, ss, j, id, round, coins)
    ensures forall j :: 0 <= j < |ps| && !ps[j].alive ==> qs[j] == ps[j]
  {
    seq(|ps|, j requires 0 <= j < |ps| => if ps[j].alive then HearAll(ps[j], j, ps, ss, round, coins) else ps[j])
  }

  // ---------------------------------------------------------------------
  // Vote

  function AdviceFor(advice: map<nat, Advice>, id: nat): Advice {
    if id in advice then advice[id] else NoAdvice
  }

  /** Everybody alive votes once, in roster order. */
  function CastVotes(ps: seq<Player>, alive: seq<nat>, abstain: set<nat>, advice: map<nat, Advice>): (votes: seq<Ballot>)
    requires forall k :: 0 <= k < |alive| ==> alive[k] < |ps|
    ensures |votes| == |alive|
    ensures forall k :: 0 <= k < |alive| && votes[k].For? ==> votes[k].id in alive
    ensures forall k :: 0 <= k < |alive| && AdviceFor(advice, alive[k]) == NoAdvice ==>
      votes[k] == HeuristicVote(ps[alive[k]], alive[k], alive, alive[k] in abstain)
  {
    seq(|alive|, k requires 0 <= k < |alive| =>
      FinalBallot(HeuristicVote(ps[alive[k]], alive[k], alive, alive[k] in abstain),
                  AdviceFor(advice, alive[k]), alive[k], alive))
  }

  /** The advisor's `believed` list: each mention of a player raises the voter's score of that player by 0.6. */
  function Endorse(p: Player, ids: seq<nat>): (q: Player)
    ensures q == p.(suspicion := q.suspicion)
    ensures forall id :: Score(q, id) == Score(p, id) + 0.6 * (multiset(ids)[id] as real)
    decreases |ids|
  {
    if |ids| == 0 then p
    else
      assert ids == [ids[0]] + ids[1..];
      Endorse(MarkSuspicion(p, ids[0], 0.6), ids[1..])
  }

  /**
   * Every living voter whose advisor answered with a `believed` list takes
   * it in, after casting its own ballot; nobody else changes.
   */
  function Endorsements(ps: seq<Player>, believed: map<nat, seq<nat>>): (qs: seq<Player>)
    ensures |qs| == |ps|
    ensures forall j :: 0 <= j < |ps| ==> qs[j] == ps[j].(suspicion := qs[j].suspicion)
    ensures forall j, id :: 0 <= j < |ps| && ps[j].alive && j in believed ==>
      Score(qs[j], id) == Score(ps[j], id) + 0.6 * (multiset(believed[j])[id] as real)
    ensures forall j :: 0 <= j < |ps| && (!ps[j].alive || j !in believed) ==> qs[j] == ps[j]
  {
    seq(|ps|, j requires 0 <= j < |ps| => if ps[j].alive && j in believed then Endorse(ps[j], believed[j]) else ps[j])
  }

  /** After the vote every witness memory is cleared and every kill cooldown ticks down. */
  function AfterVote(p: Player): Player {
    p.(seenKillBy := None, killCooldown := CountDown(p.killCooldown))
  }

  /** Remove the ejected player (if any and still alive), then apply `AfterVote` to everyone. */
  function Eject(ps: seq<Player>, out: Option<nat>): (qs: seq<Player>)
    ensures |qs| == |ps|
    ensures forall j :: 0 <= j < |ps| ==> qs[j].alive == (ps[j].alive && out != Some(j))
    ensures forall j :: 0 <= j < |ps| ==> qs[j] == AfterVote(ps[j]).(alive := qs[j].alive)
  {
    seq(|ps|, j requires 0 <= j < |ps| =>
      var p := AfterVote(ps[j]);
      if out == Some(j) then p.(alive := false) else p)
  }

  /** What the discussion and the vote produce: the statements, the ballots and the roster afterwards. */
  datatype Verdict = Verdict(statements: seq<Statement>, votes: seq<Ballot>, players: seq<Player>)

  /**
   * Statements, reactions, votes and the ejection over roster `ps`.
   *
   * `said` and `advice` are the advisor's answers, when it gave any;
   * `coins` holds the (listener, speaker) pairs whose 0.56 coin came up
   * "believe"; `abstain` the voters whose 0.24 abstention coin came up;
   * `believed` the players each voter's advisor said it believed.
   */
  function Deliberate(ps: seq<Player>, round: int, said: map<nat, Statement>, coins: set<(nat, nat)>,
                      abstain: set<nat>, advice: map<nat, Advice>, believed: map<nat, seq<nat>>): (v: Verdict)
    ensures |v.statements| == |AliveIds(ps)| && |v.votes| == |AliveIds(ps)|
    ensures Resolved(ps, multiset(v.votes), v.players)
  {
    var d := Discuss(ps, round, said, coins, abstain, advice, believed);
    var qs := Settle(d.players, d.votes);
    ResolvedDespiteScores(ps, d.players, multiset(d.votes), qs);
    Verdict(d.statements, d.votes, qs)
  }

  /** Scores play no part in `Resolved`: a roster that differs only in scores resolves the same way. */
  lemma ResolvedDespiteScores(ps: seq<Player>, hs: seq<Player>, tally: multiset<Ballot>, qs: seq<Player>)
    requires |hs| == |ps| && forall j :: 0 <= j < |ps| ==> hs[j] == ps[j].(suspicion := hs[j].suspicion)
    requires Resolved(hs, tally, qs)
    ensures Resolved(ps, tally, qs)
  {
  }

  /**
   * The roster after a meeting with tally `tally`: the strict leader of the
   * tally leaves, nobody else does; roles, tasks and rooms stay, witness
   * memory is cleared and every kill cooldown ticks down.
   */
  predicate Resolved(ps: seq<Player>, tally: multiset<Ballot>, qs: seq<Player>) {
    && |qs| == |ps|
    && (forall j :: 0 <= j < |ps| ==> qs[j].alive == (ps[j].alive && !StrictLeader(tally, For(j))))
    && (forall j :: 0 <= j < |ps| ==>
          && qs[j].impostor == ps[j].impostor && qs[j].tasks == ps[j].tasks
          && qs[j].room == ps[j].room && qs[j].positionLog == ps[j].positionLog
          && qs[j].seenKillBy.None? && qs[j].killCooldown == CountDown(ps[j].killCooldown))
  }

  /** The discussion and the ballots, before anybody leaves; `players` carries the updated scores. */
  function Discuss(ps: seq<Player>, round: int, said: map<nat, Statement>, coins: set<(nat, nat)>,
                   abstain: set<nat>, advice: map<nat, Advice>, believed: map<nat, seq<nat>>): (v: Verdict)
    ensures |v.statements| == |AliveIds(ps)| && |v.votes| == |AliveIds(ps)|
    ensures |v.players| == |ps|
    ensures forall j :: 0 <= j < |ps| ==> v.players[j] == ps[j].(suspicion := v.players[j].suspicion)
  {
    var alive := AliveIds(ps);
    var ss := Speak(ps, alive, said);
    var heard := Listen(ps, ss, round, coins);
    Verdict(ss, CastVotes(heard, alive, abstain, advice), Endorsements(heard, believed))
  }

  /** The tally decides: the strict leader, if alive, leaves; then `AfterVote` for everyone. */
  function Settle(ps: seq<Player>, votes: seq<Ballot>): (qs: seq<Player>)
    ensures Resolved(ps, multiset(votes), qs)
  {
    var out := Ejection(votes);
    assert forall j :: 0 <= j < |ps| && out == Some(j) ==> StrictLeader(multiset(votes), For(j));
    assert forall j :: 0 <= j < |ps| && out != Some(j) ==> !StrictLeader(multiset(votes), For(j)) by {
      forall j | 0 <= j < |ps| && out != Some(j) ensures !StrictLeader(multiset(votes), For(j)) {
        if out.Some? {
          assert StrictLeader(multiset(votes), For(out.value));
        }
      }
    }
    Eject(ps, out)
  }

  /** The rest of `resolveMeeting`: deliberate, then the vote phase opens with timer 2. */
  function CompleteMeeting(g: GameState, said: map<nat, Statement>, coins: set<(nat, nat)>,
                           abstain: set<nat>, advice: map<nat, Advice>, believed: map<nat, seq<nat>>): (r: GameState)
    ensures !g.resolving || g.meeting.None? ==> r == g
    ensures g.resolving && g.meeting.Some? ==>
      && r.phase == MeetingVote && !r.resolving
      && r.meeting.Some? && r.meeting.value.timer == 2 && r.meeting.value.votes.Some?
      && |r.meeting.value.votes.value| == |AliveIds(g.players)|
      && |r.meeting.value.statements| == |AliveIds(g.players)|
      && Resolved(g.players, r.meeting.value.votes.value, r.players)
      && r.bodies == g.bodies && r.round == g.round && r.gameOver == g.gameOver && r.alarm == g.alarm
    ensures Evolves(g, r)
  {
    if !g.resolving || g.meeting.None? then g
    else
      var v := Deliberate(g.players, g.round, said, coins, abstain, advice, believed);
      var r := g.(players := v.players,
                  phase := MeetingVote,
                  resolving := false,
                  meeting := Some(g.meeting.value.(statements := v.statements, votes := Some(multiset(v.votes)), timer := 2)));
      ResolvedEvolves(g, multiset(v.votes), r);
      r
  }

  /** A resolved meeting is a step of the game: nobody returns from the dead and no task comes undone. */
  lemma ResolvedEvolves(g: GameState, tally: multiset<Ballot>, r: GameState)
    requires Resolved(g.players, tally, r.players)
    ensures Evolves(g, r)
  {
  }

  /**
   * The whole meeting, timer by timer: a fresh discussion lasts three
   * updates and then resolves; once resolved, the vote lasts two updates and
   * freeplay resumes without the reported bodies.
   */
  lemma MeetingTimeline(g: GameState, said: map<nat, Statement>, coins: set<(nat, nat)>,
                        abstain: set<nat>, advice: map<nat, Advice>, believed: map<nat, seq<nat>>)
    requires g.phase == MeetingDiscussion && !g.resolving
    requires g.meeting.Some? && g.meeting.value.timer == 3
    ensures var u2 := UpdateMeeting(UpdateMeeting(g));
      && u2.phase == MeetingDiscussion
      && UpdateMeeting(u2).phase == MeetingResolving
    ensures var c := CompleteMeeting(UpdateMeeting(UpdateMeeting(UpdateMeeting(g))), said, coins, abstain, advice, believed);
      && UpdateMeeting(c).phase == MeetingVote
      && UpdateMeeting(UpdateMeeting(c)).phase == Freeplay
      && UpdateMeeting(UpdateMeeting(c)).bodies == Unreported(g.bodies)
  {
    var u3 := UpdateMeeting(UpdateMeeting(UpdateMeeting(g)));
    assert u3.resolving && u3.meeting.Some?;
    var c := CompleteMeeting(u3, said, coins, abstain, advice, believed);
    assert c.meeting.value.timer == 2 && c.bodies == g.bodies;
  }
}

=== FILE: pathfinder.dfy ===
/**
 * Breadth-first search over the corridor graph (`shortestPath`), and the
 * one-step move it drives (`moveToward`).
 *
 * The search keeps a queue of whole paths and a set of rooms already seen,
 * exactly as the browser engine does. Its correctness argument works layer by
 * layer: `Ball(a, k)` is the set of rooms within `k` corridors of `a`.
 */
module Pathfinder {
  import opened Rooms

  function Last(p: seq<Room>): Room
    requires |p| > 0
  {
    p[|p| - 1]
  }

  /** A non-empty room sequence in which consecutive rooms share a corridor. */
  ghost predicate IsWalk(p: seq<Room>) {
    |p| > 0 && forall i :: 0 <= i < |p| - 1 ==> Linked(p[i], p[i + 1])
  }

  ghost predicate WalkFrom(p: seq<Room>, a: Room, b: Room) {
    IsWalk(p) && p[0] == a && Last(p) == b
  }

  /** No room occurs twice. */
  ghost predicate Simple(p: seq<Room>) {
    forall i, j :: 0 <= i < j < |p| ==> p[i] != p[j]
  }

  /** `p` is a walk from `a` to `b` and no walk from `a` to `b` is shorter. */
  ghost predicate IsShortest(p: seq<Room>, a: Room, b: Room) {
    WalkFrom(p, a, b) && forall w :: WalkFrom(w, a, b) ==> |p| <= |w|
  }

  /** Rooms one corridor away from some room of `s`. */
  ghost function Step(s: set<Room>): set<Room> {
    set x, y | x in s && y in Links(x) :: y
  }

  /** Rooms reachable from `a` through at most `k` corridors. */
  ghost function Ball(a: Room, k: nat): set<Room> {
    if k == 0 then {a} else Ball(a, k - 1) + Step(Ball(a, k - 1))
  }

  /** What the search promises about the path it returns. */
  ghost predicate PathResult(start: Room, goal: Room, r: seq<Room>) {
    && |r| > 0 && r[0] == start && IsWalk(r) && Simple(r)
    && (Last(r) == goal ==> IsShortest(r, start, goal))
    && (Last(r) != goal ==> r == [start] && forall w :: !WalkFrom(w, start, goal))
  }

  /** `shortestPath(start, goal)`. */
  function ShortestPath(start: Room, goal: Room): (r: seq<Room>)
    ensures PathResult(start, goal, r)
    ensures start == goal ==> r == [start]
  {
    if start == goal then
      assert forall w :: WalkFrom(w, start, goal) ==> 1 <= |w|;
      [start]
    else
      InitialInvariant(start, goal);
      SearchCorrect(start, goal, [[start]], {start}, {}, 0);
      Search(start, goal, [[start]], {start})
  }

  /** The outer `while (queue.length)` loop: take the oldest path and scan its last room's corridors. */
  function Search(start: Room, goal: Room, queue: seq<seq<Room>>, seen: set<Room>): seq<Room>
    requires forall p :: p in queue ==> |p| > 0
    decreases |RoomSet - seen|, |queue|, 0, 0
  {
    if |queue| == 0 then [start]
    else
      var path := queue[0];
      Scan(start, goal, path, Links(Last(path)), queue[1..], seen)
  }

  /** The inner `for (const next of links)` loop over the corridors still to try. */
  function Scan(start: Room, goal: Room, path: seq<Room>, nexts: seq<Room>,
                queue: seq<seq<Room>>, seen: set<Room>): seq<Room>
    requires |path| > 0
    requires forall p :: p in queue ==> |p| > 0
    decreases |RoomSet - seen|, |queue|, 1, |nexts|
  {
    if |nexts| == 0 then Search(start, goal, queue, seen)
    else
      var next := nexts[0];
      if next in seen then Scan(start, goal, path, nexts[1..], queue, seen)
      else if next == goal then path + [next]
      else
        EveryRoomListed(next);
        assert RoomSet - (seen + {next}) == (RoomSet - seen) - {next};
        Scan(start, goal, path, nexts[1..], queue + [path + [next]], seen + {next})
  }

  /** `moveToward`: the room after one step along the shortest path (or stay put). */
  function NextHop(from: Room, to: Room): (n: Room)
    ensures from == to ==> n == from
    ensures from != to ==> Linked(from, n) && IsShortest(ShortestPath(from, to)[1..], n, to)
  {
    FirstStep(from, to);
    var p := ShortestPath(from, to);
    if |p| > 1 then p[1] else from
  }

  // ---------------------------------------------------------------------
  // Layers

  lemma BallGrows(a: Room, k: nat)
    ensures Ball(a, k) <= Ball(a, k + 1)
  {
  }

  lemma {:induction false} BallMonotone(a: Room, j: nat, k: nat)
    requires j <= k
    ensures Ball(a, j) <= Ball(a, k)
    decreases k - j
  {
    if j < k {
      BallGrows(a, j);
      BallMonotone(a, j + 1, k);
    }
  }

  /** A walk from `a` with n rooms ends within n - 1 corridors of `a`. */
  lemma {:induction false} WalkInBall(w: seq<Room>, a: Room)
    requires IsWalk(w) && w[0] == a
    ensures Last(w) in Ball(a, |w| - 1)
    decreases |w|
  {
    if |w| > 1 {
      var w' := w[..|w| - 1];
      WalkPrefix(w, |w| - 1);
      WalkInBall(w', a);
      assert Linked(w[|w| - 2], w[|w| - 1]);
      assert Last(w') == w[|w| - 2];
      assert Last(w) in Step(Ball(a, |w'| - 1));
    }
  }

  /** Every prefix of a walk is a walk. */
  lemma WalkPrefix(w: seq<Room>, n: nat)
    requires IsWalk(w) && 0 < n <= |w|
    ensures IsWalk(w[..n])
  {
    var w' := w[..n];
    forall i | 0 <= i < |w'| - 1
      ensures Linked(w'[i], w'[i + 1])
    {
      assert w'[i] == w[i] && w'[i + 1] == w[i + 1];
    }
  }

  /** A walk starting inside a corridor-closed set of rooms never leaves it. */
  lemma {:induction false} WalkStaysInClosedSet(w: seq<Room>, s: set<Room>)
    requires IsWalk(w) && w[0] in s
    requires forall x, y :: x in s && y in Links(x) ==> y in s
    ensures Last(w) in s
    decreases |w|
  {
    if |w| > 1 {
      var w' := w[..|w| - 1];
      WalkPrefix(w, |w| - 1);
      WalkStaysInClosedSet(w', s);
      assert Linked(w[|w| - 2], w[|w| - 1]);
    }
  }

  // ---------------------------------------------------------------------
  // Search invariant

  /** Every queued path is a simple walk from `start` through seen rooms, of
      `d + 1` or `d + 2` rooms, in non-decreasing length, ending in a room that
      no shorter walk reaches. */
  ghost predicate QueueInv(start: Room, queue: seq<seq<Room>>, seen: set<Room>, d: nat) {
    && (forall p :: p in queue ==>
          && |p| > 0 && WalkFrom(p, start, Last(p)) && Simple(p)
          && (forall k :: 0 <= k < |p| ==> p[k] in seen)
          && (|p| == d + 1 || |p| == d + 2)
          && (|p| >= 2 ==> Last(p) !in Ball(start, |p| - 2)))
    && (forall i, j :: 0 <= i < j < |queue| ==> |queue[i]| <= |queue[j]|)
  }

  /** Every corridor out of `x` leads to a seen room. */
  ghost predicate Expanded(x: Room, seen: set<Room>) {
    forall y :: y in Links(x) ==> y in seen
  }

  ghost predicate Queued(x: Room, queue: seq<seq<Room>>) {
    exists p :: p in queue && |p| > 0 && Last(p) == x
  }

  /** The search invariant, with `expanded` the rooms whose corridors have all
      been tried and `d` the current layer. */
  ghost predicate SearchInv(start: Room, goal: Room, queue: seq<seq<Room>>,
                            seen: set<Room>, expanded: set<Room>, d: nat) {
    && start != goal && goal !in seen && start in seen
    && QueueInv(start, queue, seen, d)
    && expanded <= seen
    && (forall x :: x in expanded ==> Expanded(x, seen))
    && (forall x :: x in seen && x !in expanded ==> Queued(x, queue))
    && Ball(start, d) <= seen
  }

  lemma InitialInvariant(start: Room, goal: Room)
    requires start != goal
    ensures SearchInv(start, goal, [[start]], {start}, {}, 0)
  {
    assert Last([start]) == start;
    assert Queued(start, [[start]]);
  }

  /** Once every queued path has `d + 2` rooms, all of layer `d + 1` has been seen. */
  lemma AdvanceLayer(start: Room, goal: Room, queue: seq<seq<Room>>,
                     seen: set<Room>, expanded: set<Room>, d: nat)
    requires SearchInv(start, goal, queue, seen, expanded, d)
    requires |queue| > 0 && |queue[0]| == d + 2
    ensures SearchInv(start, goal, queue, seen, expanded, d + 1)
  {
    FrontLayerDone(start, queue, seen, d);
    QueueNextLayer(start, queue, seen, d);
    NextLayerSeen(start, queue, seen, expanded, d);
  }

  /** With every queued path `d + 2` rooms long, the queue is layer `d + 1`'s. */
  lemma QueueNextLayer(start: Room, queue: seq<seq<Room>>, seen: set<Room>, d: nat)
    requires QueueInv(start, queue, seen, d)
    requires forall p :: p in queue ==> |p| == d + 2
    ensures QueueInv(start, queue, seen, d + 1)
    ensures forall p :: p in queue ==> Last(p) !in Ball(start, d)
  {
  }

  lemma FrontLayerDone(start: Room, queue: seq<seq<Room>>, seen: set<Room>, d: nat)
    requires QueueInv(start, queue, seen, d)
    requires |queue| > 0 && |queue[0]| == d + 2
    ensures forall p :: p in queue ==> |p| == d + 2
  {
    forall p | p in queue
      ensures |p| == d + 2
    {
      var i :| 0 <= i < |queue| && queue[i] == p;
      if i > 0 {
        assert |queue[0]| <= |queue[i]|;
      }
    }
  }

  lemma NextLayerSeen(start: Room, queue: seq<seq<Room>>, seen: set<Room>, expanded: set<Room>, d: nat)
    requires Ball(start, d) <= seen
    requires forall x :: x in expanded ==> Expanded(x, seen)
    requires forall x :: x in seen && x !in expanded ==> Queued(x, queue)
    requires forall p :: p in queue ==> |p| == d + 2 && Last(p) !in Ball(start, d)
    ensures Ball(start, d + 1) <= seen
  {
    assert Ball(start, d + 1) == Ball(start, d) + Step(Ball(start, d));
    forall y | y in Step(Ball(start, d))
      ensures y in seen
    {
      var x :| x in Ball(start, d) && y in Links(x);
      assert x in expanded;
    }
  }

  lemma {:induction false} SearchCorrect(start: Room, goal: Room, queue: seq<seq<Room>>,
                                         seen: set<Room>, expanded: set<Room>, d: nat)
    requires SearchInv(start, goal, queue, seen, expanded, d)
    ensures PathResult(start, goal, Search(start, goal, queue, seen))
    decreases |RoomSet - seen|, |queue|, 0, 0
  {
    if |queue| == 0 {
      EmptyQueueMeansUnreachable(start, goal, seen, expanded, d);
    } else {
      var path := queue[0];
      var d' := if |path| == d + 2 then d + 1 else d;
      if |path| == d + 2 {
        AdvanceLayer(start, goal, queue, seen, expanded, d);
      }
      PopFront(start, goal, queue, seen, expanded, d');
      ScanCorrect(start, goal, path, Links(Last(path)), queue[1..], seen, expanded, d', 0);
    }
  }

  /** With nothing left to explore, the seen rooms are closed under corridors, so the goal is unreachable. */
  lemma EmptyQueueMeansUnreachable(start: Room, goal: Room, seen: set<Room>, expanded: set<Room>, d: nat)
    requires SearchInv(start, goal, [], seen, expanded, d)
    ensures PathResult(start, goal, [start])
  {
    assert seen == expanded;
    forall w | WalkFrom(w, start, goal)
      ensures false
    {
      WalkStaysInClosedSet(w, seen);
    }
    assert Last([start]) == start;
  }

  /** The invariant of the inner loop, before any corridor of the front path's last room is tried. */
  ghost predicate ScanInv(start: Room, goal: Room, path: seq<Room>, queue: seq<seq<Room>>,
                          seen: set<Room>, expanded: set<Room>, d: nat) {
    && start != goal && goal !in seen && start in seen
    && |path| == d + 1 && WalkFrom(path, start, Last(path)) && Simple(path)
    && (forall k :: 0 <= k < |path| ==> path[k] in seen)
    && QueueInv(start, queue, seen, d)
    && expanded <= seen
    && (forall x :: x in expanded ==> Expanded(x, seen))
    && (forall x :: x in seen && x !in expanded && x != Last(path) ==> Queued(x, queue))
    && Ball(start, d) <= seen
  }

  lemma PopFront(start: Room, goal: Room, queue: seq<seq<Room>>,
                 seen: set<Room>, expanded: set<Room>, d: nat)
    requires SearchInv(start, goal, queue, seen, expanded, d)
    requires |queue| > 0 && |queue[0]| == d + 1
    ensures ScanInv(start, goal, queue[0], queue[1..], seen, expanded, d)
  {
    var path := queue[0];
    var rest := queue[1..];
    assert forall p :: p in rest ==> p in queue;
    assert QueueInv(start, rest, seen, d);
    forall x | x in seen && x !in expanded && x != Last(path)
      ensures Queued(x, rest)
    {
      assert Queued(x, queue);
      var p :| p in queue && |p| > 0 && Last(p) == x;
      var i :| 0 <= i < |queue| && queue[i] == p;
      assert i != 0;
      assert rest[i - 1] == p;
    }
  }

  /** The inner loop has tried the first `j` corridors of the front path's last room. */
  ghost predicate ScanAt(start: Room, goal: Room, path: seq<Room>, nexts: seq<Room>,
                         queue: seq<seq<Room>>, seen: set<Room>, expanded: set<Room>, d: nat, j: nat) {
    && ScanInv(start, goal, path, queue, seen, expanded, d)
    && j <= |Links(Last(path))| && nexts == Links(Last(path))[j..]
    && forall k :: 0 <= k < j ==> Links(Last(path))[k] in seen
  }

  lemma {:induction false} ScanCorrect(start: Room, goal: Room, path: seq<Room>, nexts: seq<Room>,
                                       queue: seq<seq<Room>>, seen: set<Room>,
                                       expanded: set<Room>, d: nat, j: nat)
    requires ScanAt(start, goal, path, nexts, queue, seen, expanded, d, j)
    ensures PathResult(start, goal, Scan(start, goal, path, nexts, queue, seen))
    decreases |RoomSet - seen|, |queue|, 1, |nexts|
  {
    var r := Scan(start, goal, path, nexts, queue, seen);
    if |nexts| == 0 {
      assert r == Search(start, goal, queue, seen);
      FinishScan(start, goal, path, queue, seen, expanded, d);
      SearchCorrect(start, goal, queue, seen, expanded + {Last(path)}, d);
    } else if nexts[0] in seen {
      assert r == Scan(start, goal, path, nexts[1..], queue, seen);
      SkipSeen(start, goal, path, nexts, queue, seen, expanded, d, j);
      ScanCorrect(start, goal, path, nexts[1..], queue, seen, expanded, d, j + 1);
    } else if nexts[0] == goal {
      assert r == path + [goal];
      assert Linked(Last(path), goal) by {
        assert nexts[0] == Links(Last(path))[j];
      }
      FoundGoal(start, goal, path, seen, d);
    } else {
      var next := nexts[0];
      EveryRoomListed(next);
      assert RoomSet - (seen + {next}) == (RoomSet - seen) - {next};
      assert r == Scan(start, goal, path, nexts[1..], queue + [path + [next]], seen + {next});
      Enqueue(start, goal, path, nexts, queue, seen, expanded, d, j);
      ScanCorrect(start, goal, path, nexts[1..], queue + [path + [next]], seen + {next}, expanded, d, j + 1);
    }
  }

  lemma SkipSeen(start: Room, goal: Room, path: seq<Room>, nexts: seq<Room>,
                 queue: seq<seq<Room>>, seen: set<Room>, expanded: set<Room>, d: nat, j: nat)
    requires ScanAt(start, goal, path, nexts, queue, seen, expanded, d, j)
    requires |nexts| > 0 && nexts[0] in seen
    ensures ScanAt(start, goal, path, nexts[1..], queue, seen, expanded, d, j + 1)
  {
    var links := Links(Last(path));
    assert nexts[0] == links[j];
    assert nexts[1..] == links[j + 1..];
  }

  lemma FinishScan(start: Room, goal: Room, path: seq<Room>, queue: seq<seq<Room>>,
                   seen: set<Room>, expanded: set<Room>, d: nat)
    requires ScanInv(start, goal, path, queue, seen, expanded, d)
    requires forall k :: 0 <= k < |Links(Last(path))| ==> Links(Last(path))[k] in seen
    ensures SearchInv(start, goal, queue, seen, expanded + {Last(path)}, d)
  {
    var links := Links(Last(path));
    assert Expanded(Last(path), seen) by {
      forall y | y in links ensures y in seen {
        var k :| 0 <= k < |links| && links[k] == y;
      }
    }
  }

  /** Extending a front path of d + 1 rooms by the unseen goal gives a shortest path. */
  lemma FoundGoal(start: Room, goal: Room, path: seq<Room>, seen: set<Room>, d: nat)
    requires start != goal && goal !in seen
    requires |path| == d + 1 && WalkFrom(path, start, Last(path)) && Simple(path)
    requires forall k :: 0 <= k < |path| ==> path[k] in seen
    requires Linked(Last(path), goal)
    requires Ball(start, d) <= seen
    ensures PathResult(start, goal, path + [goal])
  {
    var r := path + [goal];
    ExtendWalk(path, goal);
    assert Simple(r);
    forall w | WalkFrom(w, start, goal)
      ensures |r| <= |w|
    {
      WalkInBall(w, start);
      if |w| - 1 <= d {
        BallMonotone(start, |w| - 1, d);
      }
    }
  }

  lemma ExtendWalk(path: seq<Room>, next: Room)
    requires IsWalk(path) && Linked(Last(path), next)
    ensures IsWalk(path + [next]) && (path + [next])[0] == path[0] && Last(path + [next]) == next
  {
    var r := path + [next];
    forall i | 0 <= i < |r| - 1
      ensures Linked(r[i], r[i + 1])
    {
      if i < |path| - 1 {
        assert r[i] == path[i] && r[i + 1] == path[i + 1];
      }
    }
  }

  /** Queuing the front path extended by an unseen, non-goal room keeps the inner-loop invariant. */
  lemma Enqueue(start: Room, goal: Room, path: seq<Room>, nexts: seq<Room>,
                queue: seq<seq<Room>>, seen: set<Room>, expanded: set<Room>, d: nat, j: nat)
    requires ScanAt(start, goal, path, nexts, queue, seen, expanded, d, j)
    requires |nexts| > 0 && nexts[0] !in seen && nexts[0] != goal
    ensures ScanAt(start, goal, path, nexts[1..], queue + [path + [nexts[0]]], seen + {nexts[0]}, expanded, d, j + 1)
  {
    var links := Links(Last(path));
    var next := nexts[0];
    assert next == links[j];
    assert nexts[1..] == links[j + 1..];
    EnqueueKeepsScanInv(start, goal, path, next, queue, seen, expanded, d);
  }

  lemma EnqueueKeepsScanInv(start: Room, goal: Room, path: seq<Room>, next: Room,
                            queue: seq<seq<Room>>, seen: set<Room>, expanded: set<Room>, d: nat)
    requires ScanInv(start, goal, path, queue, seen, expanded, d)
    requires next !in seen && next != goal && Linked(Last(path), next)
    ensures ScanInv(start, goal, path, queue + [path + [next]], seen + {next}, expanded, d)
  {
    QueueAppend(start, path, next, queue, seen, d);
    QueuedAppend(path + [next], queue, seen, expanded, Last(path));
  }

  lemma QueueAppend(start: Room, path: seq<Room>, next: Room, queue: seq<seq<Room>>,
                    seen: set<Room>, d: nat)
    requires QueueInv(start, queue, seen, d)
    requires |path| == d + 1 && WalkFrom(path, start, Last(path)) && Simple(path)
    requires forall k :: 0 <= k < |path| ==> path[k] in seen
    requires next !in seen && Linked(Last(path), next)
    requires Ball(start, d) <= seen
    ensures QueueInv(start, queue + [path + [next]], seen + {next}, d)
  {
    var np := path + [next];
    var seen' := seen + {next};
    var queue' := queue + [np];
    ExtendWalk(path, next);
    assert Simple(np);
    assert Last(np) !in Ball(start, |np| - 2);
    forall p | p in queue'
      ensures && |p| > 0 && WalkFrom(p, start, Last(p)) && Simple(p)
              && (forall k :: 0 <= k < |p| ==> p[k] in seen')
              && (|p| == d + 1 || |p| == d + 2)
              && (|p| >= 2 ==> Last(p) !in Ball(start, |p| - 2))
    {
      if p != np {
        assert p in queue;
      }
    }
    forall i, k | 0 <= i < k < |queue'|
      ensures |queue'[i]| <= |queue'[k]|
    {
      if k == |queue| {
        assert queue'[i] in queue;
      } else {
        assert queue'[i] == queue[i] && queue'[k] == queue[k];
      }
    }
  }

  lemma QueuedAppend(np: seq<Room>, queue: seq<seq<Room>>, seen: set<Room>,
                     expanded: set<Room>, current: Room)
    requires |np| > 0
    requires forall x :: x in seen && x !in expanded && x != current ==> Queued(x, queue)
    ensures forall x :: x in seen + {Last(np)} && x !in expanded && x != current ==> Queued(x, queue + [np])
  {
    var queue' := queue + [np];
    forall x | x in seen + {Last(np)} && x !in expanded && x != current
      ensures Queued(x, queue')
    {
      if x == Last(np) {
        assert np in queue';
      } else {
        assert Queued(x, queue);
        var p :| p in queue && |p| > 0 && Last(p) == x;
        assert p in queue';
      }
    }
  }

  // ---------------------------------------------------------------------
  // The map is connected

  /** A walk from the cafeteria to every room. */
  function HubWalk(r: Room): seq<Room> {
    match r
    case Cafeteria => [Cafeteria]
    case Weapons => [Cafeteria, Weapons]
    case O2 => [Cafeteria, Weapons, O2]
    case Navigation => [Cafeteria, Weapons, Navigation]
    case Shields => [Cafeteria, Weapons, O2, Shields]
    case Communications => [Cafeteria, Admin, Storage, Communications]
    case Storage => [Cafeteria, Admin, Storage]
    case Admin => [Cafeteria, Admin]
    case Electrical => [Cafeteria, Admin, Storage, Electrical]
    case LowerEngine => [Cafeteria, Admin, Storage, LowerEngine]
    case Reactor => [Cafeteria, UpperEngine, Reactor]
    case Security => [Cafeteria, MedBay, Security]
    case MedBay => [Cafeteria, MedBay]
    case UpperEngine => [Cafeteria, UpperEngine]
  }

  lemma HubWalkIsWalk(r: Room)
    ensures WalkFrom(HubWalk(r), Cafeteria, r)
  {
  }

  function Reverse(p: seq<Room>): (r: seq<Room>)
    ensures |r| == |p|
    ensures forall i :: 0 <= i < |p| ==> r[i] == p[|p| - 1 - i]
  {
    if |p| == 0 then [] else Reverse(p[1..]) + [p[0]]
  }

  lemma ReverseWalk(p: seq<Room>, a: Room, b: Room)
    requires WalkFrom(p, a, b)
    ensures WalkFrom(Reverse(p), b, a)
  {
    var r := Reverse(p);
    forall i | 0 <= i < |r| - 1
      ensures Linked(r[i], r[i + 1])
    {
      var k := |p| - 2 - i;
      assert r[i] == p[k + 1] && r[i + 1] == p[k];
      assert Linked(p[k], p[k + 1]);
      LinksSymmetric(p[k], p[k + 1]);
    }
  }

  lemma JoinWalks(p: seq<Room>, q: seq<Room>, a: Room, b: Room, c: Room)
    requires WalkFrom(p, a, b) && WalkFrom(q, b, c)
    ensures WalkFrom(p + q[1..], a, c)
  {
    var r := p + q[1..];
    forall i | 0 <= i < |r| - 1
      ensures Linked(r[i], r[i + 1])
    {
      if i < |p| - 1 {
        assert r[i] == p[i] && r[i + 1] == p[i + 1];
      } else {
        var k := i - |p| + 1;
        assert r[i] == q[k] && r[i + 1] == q[k + 1];
      }
    }
  }

  /** Every room can reach every other, so the search always reaches its goal. */
  lemma ShortestPathReachesGoal(start: Room, goal: Room)
    ensures Last(ShortestPath(start, goal)) == goal
  {
    HubWalkIsWalk(start);
    HubWalkIsWalk(goal);
    ReverseWalk(HubWalk(start), Cafeteria, start);
    JoinWalks(Reverse(HubWalk(start)), HubWalk(goal), start, Cafeteria, goal);
  }

  /** The first step of a shortest path leaves a shortest path one room shorter. */
  lemma StepAlongShortest(p: seq<Room>, from: Room, to: Room)
    requires IsShortest(p, from, to) && from != to
    ensures |p| >= 2 && Linked(from, p[1]) && IsShortest(p[1..], p[1], to)
  {
    assert |p| >= 2;
    assert Linked(p[0], p[1]);
    var tail := p[1..];
    assert IsWalk(tail) by {
      forall i | 0 <= i < |tail| - 1
        ensures Linked(tail[i], tail[i + 1])
      {
        assert tail[i] == p[i + 1] && tail[i + 1] == p[i + 2];
      }
    }
    forall w | WalkFrom(w, p[1], to)
      ensures |tail| <= |w|
    {
      JoinWalks([from, p[1]], w, from, p[1], to);
    }
  }

  lemma FirstStep(from: Room, to: Room)
    ensures from != to ==>
      var p := ShortestPath(from, to);
      |p| >= 2 && Linked(from, p[1]) && IsShortest(p[1..], p[1], to)
  {
    if from != to {
      ShortestPathReachesGoal(from, to);
      StepAlongShortest(ShortestPath(from, to), from, to);
    }
  }

  /** Corridors between `a` and `b` along the path the search returns. */
  function Distance(a: Room, b: Room): (n: nat)
    ensures n == 0 <==> a == b
  {
    ShortestPathReachesGoal(a, b);
    |ShortestPath(a, b)| - 1
  }

  /** Each `moveToward` step brings the mover exactly one corridor closer. */
  lemma NextHopCloser(from: Room, to: Room)
    requires from != to
    ensures Distance(NextHop(from, to), to) + 1 == Distance(from, to)
  {
    var n := NextHop(from, to);
    ShortestPathReachesGoal(n, to);
    assert IsShortest(ShortestPath(n, to), n, to);
    assert IsShortest(ShortestPath(from, to)[1..], n, to);
  }
}

=== FILE: pysim.dfy ===
/**
 * The terminal simulator: the same map, simpler rules. Bots wander one
 * corridor per round, crewmates finish tasks in the room they wander into,
 * impostors kill with a cooldown, the first body may be reported, and a
 * meeting votes at random.
 *
 * Players are identified by roster index (names are unique in the
 * simulator). Every `rng.random() < p` and `rng.choice(...)` is an argument:
 * a boolean for the former and an index, reduced modulo the length, for the
 * latter.
 */
module PySim {
  import opened Util
  import opened Rooms
  import opened Agents
  import opened Council
  import opened Game

  datatype PyPlayer = PyPlayer(impostor: bool, alive: bool, room: Room, killCooldown: nat, tasks: seq<Task>)

  /** A body: the victim's index and the room it lies in. */
  datatype PyBody = PyBody(victim: nat, room: Room)

  datatype PySim = PySim(players: seq<PyPlayer>, round: int, bodies: seq<PyBody>)

  /** One bot's rolls for a round: the corridor, the act roll (task 0.7, kill 0.45) and the task or victim. */
  datatype PyTurnRoll = PyTurnRoll(corridor: nat, act: bool, pick: nat)

  /** One voter's rolls: the 0.25 skip coin and the candidate. */
  datatype PyVoteRoll = PyVoteRoll(skip: bool, pick: nat)

  /** Every roll of one round. */
  datatype PyTickRoll = PyTickRoll(turns: seq<PyTurnRoll>, report: bool, votes: seq<PyVoteRoll>)

  /** Rolls for the bots and voters the round's rolls do not reach: stay at corridor 0, do nothing, vote for the first candidate. */
  const Still := PyTurnRoll(0, false, 0)
  const Blind := PyVoteRoll(false, 0)

  function TurnAt(rolls: seq<PyTurnRoll>, k: nat): PyTurnRoll { if k < |rolls| then rolls[k] else Still }
  function VoteAt(rolls: seq<PyVoteRoll>, k: nat): PyVoteRoll { if k < |rolls| then rolls[k] else Blind }

  // ---------------------------------------------------------------------
  // Roster

  /** Living players, in roster order. */
  function Living(ps: seq<PyPlayer>): (ids: seq<nat>)
    ensures forall i: nat :: i in ids <==> i < |ps| && ps[i].alive
    ensures forall a, b :: 0 <= a < b < |ids| ==> ids[a] < ids[b]
    ensures forall k :: 0 <= k < |ids| ==> ids[k] < |ps|
  {
    var ids := LivingFrom(ps, 0);
    assert forall k :: 0 <= k < |ids| ==> ids[k] in ids;
    ids
  }

  function LivingFrom(ps: seq<PyPlayer>, from: nat): (ids: seq<nat>)
    requires from <= |ps|
    ensures forall i: nat :: i in ids <==> from <= i < |ps| && ps[i].alive
    ensures forall a, b :: 0 <= a < b < |ids| ==> from <= ids[a] < ids[b]
    decreases |ps| - from
  {
    if from == |ps| then []
    else
      var rest := LivingFrom(ps, from + 1);
      assert forall k :: 0 <= k < |rest| ==> rest[k] in rest;
      if ps[from].alive then [from] + rest else rest
  }

  /** Living players on one side. */
  function PyCountAlive(ps: seq<PyPlayer>, impostor: bool): (n: nat)
    ensures n <= |ps|
    ensures n == 0 <==> forall i :: 0 <= i < |ps| ==> !(ps[i].alive && ps[i].impostor == impostor)
  {
    if |ps| == 0 then 0
    else
      var rest := PyCountAlive(ps[1..], impostor);
      assert forall i :: 1 <= i < |ps| ==> ps[i] == ps[1..][i - 1];
      (if ps[0].alive && ps[0].impostor == impostor then 1 else 0) + rest
  }

  // ---------------------------------------------------------------------
  // Turns

  /** `move_player`: one corridor out of the current room, whatever else happens. */
  function MovePlayer(p: PyPlayer, corridor: nat): (q: PyPlayer)
    ensures Linked(p.room, q.room)
    ensures q == p.(room := q.room)
  {
    EveryRoomHasCorridor(p.room);
    p.(room := Pick(Links(p.room), corridor))
  }

  /** Indices of the tasks not done in `room`. */
  function OpenHere(tasks: seq<Task>, room: Room, from: nat): (ks: seq<nat>)
    requires from <= |tasks|
    ensures forall k: nat :: k in ks <==> from <= k < |tasks| && !tasks[k].done && tasks[k].room == room
    decreases |tasks| - from
  {
    if from == |tasks| then []
    else
      var rest := OpenHere(tasks, room, from + 1);
      if !tasks[from].done && tasks[from].room == room then [from] + rest else rest
  }

  /**
   * `do_crew_action`: with an open task in this room and the 0.7 roll won,
   * one of them (`pick`) is done; otherwise nothing happens.
   */
  function DoCrewAction(p: PyPlayer, act: bool, pick: nat): (q: PyPlayer)
    ensures q == p.(tasks := q.tasks) && TasksAdvance(p.tasks, q.tasks)
    ensures q != p <==> act && exists k :: 0 <= k < |p.tasks| && !p.tasks[k].done && p.tasks[k].room == p.room
    ensures q != p ==> UndoneCount(q.tasks) + 1 == UndoneCount(p.tasks)
    ensures q != p ==> exists k :: 0 <= k < |p.tasks| && !p.tasks[k].done && p.tasks[k].room == p.room
                                 && q.tasks == p.tasks[k := p.tasks[k].(done := true)]
  {
    var open := OpenHere(p.tasks, p.room, 0);
    if |open| > 0 && act then
      var k := Pick(open, pick);
      UndoneCountFinish(p.tasks, k);
      assert p.tasks[k := p.tasks[k].(done := true)] != p.tasks by {
        assert p.tasks[k := p.tasks[k].(done := true)][k].done;
      }
      p.(tasks := p.tasks[k := p.tasks[k].(done := true)])
    else
      assert forall k :: 0 <= k < |p.tasks| && !p.tasks[k].done && p.tasks[k].room == p.room ==> k in open;
      p
  }

  /** Living crew in the room of impostor `i`, other than `i`, in roster order. */
  function Victims(ps: seq<PyPlayer>, i: nat, from: nat): (ids: seq<nat>)
    requires i < |ps| && from <= |ps|
    ensures forall j: nat :: j in ids <==> from <= j < |ps| && j != i && ps[j].alive && !ps[j].impostor && ps[j].room == ps[i].room
    decreases |ps| - from
  {
    if from == |ps| then []
    else
      var rest := Victims(ps, i, from + 1);
      if from != i && ps[from].alive && !ps[from].impostor && ps[from].room == ps[i].room then [from] + rest else rest
  }

  /**
   * `do_impostor_action`: a cooldown above 0 only ticks down; otherwise,
   * with a living crewmate in the room and the 0.45 roll won, one of them
   * (`pick`) dies, a body is left and the cooldown becomes 3.
   */
  function DoImpostorAction(g: PySim, i: nat, act: bool, pick: nat): (r: PySim)
    requires i < |g.players|
    ensures |r.players| == |g.players| && r.round == g.round
    ensures g.players[i].killCooldown > 0 ==>
      r == g.(players := g.players[i := g.players[i].(killCooldown := g.players[i].killCooldown - 1)])
    ensures r.bodies == g.bodies || |r.bodies| == |g.bodies| + 1
    ensures |r.bodies| == |g.bodies| + 1 ==>
      var v := r.bodies[|g.bodies|].victim;
      && g.players[i].killCooldown == 0 && act
      && v < |g.players| && v != i && g.players[v].alive && !g.players[v].impostor
      && g.players[v].room == g.players[i].room
      && r.bodies[|g.bodies|].room == g.players[i].room
      && r.players == g.players[v := g.players[v].(alive := false)][i := g.players[i].(killCooldown := 3)]
      && v == Pick(Victims(g.players, i, 0), pick)
    ensures g.players[i].killCooldown == 0 && act
            && (exists j :: 0 <= j < |g.players| && j != i && g.players[j].alive && !g.players[j].impostor
                            && g.players[j].room == g.players[i].room) ==>
      |r.bodies| == |g.bodies| + 1
    ensures r.bodies == g.bodies ==> forall j :: 0 <= j < |g.players| && j != i ==> r.players[j] == g.players[j]
    ensures r.bodies == g.bodies ==> r.players[i].room == g.players[i].room
    ensures g.players[i].killCooldown == 0 ==>
      (r == g <==> !act || forall j :: 0 <= j < |g.players| && j != i ==>
                             !(g.players[j].alive && !g.players[j].impostor && g.players[j].room == g.players[i].room))
  {
    var p := g.players[i];
    if p.killCooldown > 0 then
      g.(players := g.players[i := p.(killCooldown := p.killCooldown - 1)])
    else
      var victims := Victims(g.players, i, 0);
      if |victims| > 0 && act then
        var v := Pick(victims, pick);
        var ps := g.players[v := g.players[v].(alive := false)][i := p.(killCooldown := 3)];
        g.(players := ps, bodies := g.bodies + [PyBody(v, p.room)])
      else
        assert forall j :: (0 <= j < |g.players| && j != i && g.players[j].alive && !g.players[j].impostor
                            && g.players[j].room == p.room) ==> j in victims;
        g
  }

  /** A step keeps the roster: same players with the same roles, the dead stay dead, finished tasks stay finished. */
  predicate PyEvolves(ps: seq<PyPlayer>, qs: seq<PyPlayer>) {
    && |qs| == |ps|
    && forall j :: 0 <= j < |ps| ==>
         qs[j].impostor == ps[j].impostor && (!ps[j].alive ==> !qs[j].alive) && TasksAdvance(ps[j].tasks, qs[j].tasks)
  }

  lemma PyEvolvesTransitive(a: seq<PyPlayer>, b: seq<PyPlayer>, c: seq<PyPlayer>)
    requires PyEvolves(a, b) && PyEvolves(b, c)
    ensures PyEvolves(a, c)
  {
  }

  /** One bot's round: it moves, then acts by role. Nobody else moves, and the dead are not touched. */
  function PlayTurn(g: PySim, i: nat, roll: PyTurnRoll): (r: PySim)
    requires i < |g.players|
    ensures PyEvolves(g.players, r.players) && r.round == g.round
    ensures Linked(g.players[i].room, r.players[i].room)
    ensures forall j :: 0 <= j < |g.players| && j != i ==> r.players[j].room == g.players[j].room
    ensures forall j :: 0 <= j < |g.players| && j != i && !g.players[j].alive ==> r.players[j] == g.players[j]
    ensures r.bodies == g.bodies || (g.players[i].impostor && |r.bodies| == |g.bodies| + 1)
  {
    var moved := MovePlayer(g.players[i], roll.corridor);
    var g1 := g.(players := g.players[i := moved]);
    if moved.impostor then DoImpostorAction(g1, i, roll.act, roll.pick)
    else g1.(players := g1.players[i := DoCrewAction(moved, roll.act, roll.pick)])
  }

  // ---------------------------------------------------------------------
  // Meeting

  /** The ballots of the living, in roster order: skip on the 0.25 coin, else one of the other living players. */
  function PyBallots(alive: seq<nat>, rolls: seq<PyVoteRoll>): (votes: seq<Ballot>)
    requires |alive| >= 2
    requires forall a, b :: 0 <= a < b < |alive| ==> alive[a] < alive[b]
    ensures |votes| == |alive|
    ensures forall k :: 0 <= k < |alive| ==> votes[k] == Skip || (votes[k].For? && votes[k].id in alive && votes[k].id != alive[k])
  {
    seq(|alive|, k requires 0 <= k < |alive| =>
      var roll := VoteAt(rolls, k);
      if roll.skip then Skip
      else
        var others := Without(alive, alive[k]);
        var other := if k == 0 then alive[1] else alive[0];
        assert other in alive && other != alive[k];
        For(Pick(others, roll.pick)))
  }

  /** The options of the tally in the simulator's dict order: the living in roster order, then skip. */
  function Options(alive: seq<nat>): (keys: seq<Ballot>)
    ensures |keys| == |alive| + 1 && keys[|alive|] == Skip
    ensures forall k :: 0 <= k < |alive| ==> keys[k] == For(alive[k])
  {
    seq(|alive|, k requires 0 <= k < |alive| => For(alive[k])) + [Skip]
  }

  /** The position of the first option with the highest count, as Python's `max` picks it. */
  function FirstMax(keys: seq<Ballot>, tally: multiset<Ballot>): (k: nat)
    requires |keys| > 0
    ensures k < |keys|
    ensures forall j :: 0 <= j < |keys| ==> tally[keys[j]] <= tally[keys[k]]
    ensures forall j :: 0 <= j < k ==> tally[keys[j]] < tally[keys[k]]
  {
    var n := |keys|;
    if n == 1 then 0
    else
      var front := keys[..n - 1];
      var k := FirstMax(front, tally);
      assert forall j :: 0 <= j < n - 1 ==> keys[j] == front[j];
      if tally[keys[n - 1]] > tally[keys[k]] then n - 1 else k
  }

  /**
   * `x` is the option Python's `max` returns from the tally: no option
   * counts more, skip does not, and every living player before `x` in roster
   * order counts less.
   */
  predicate FirstTop(alive: seq<nat>, tally: multiset<Ballot>, x: nat) {
    && x in alive
    && tally[Skip] <= tally[For(x)]
    && (forall y :: y in alive ==> tally[For(y)] <= tally[For(x)])
    && (forall y :: y in alive && y < x ==> tally[For(y)] < tally[For(x)])
  }

  /** Every living player is an option, at its roster position. */
  lemma OptionsCover(alive: seq<nat>, x: nat) returns (p: nat)
    requires x in alive
    ensures p < |alive| && alive[p] == x && Options(alive)[p] == For(x)
  {
    p :| 0 <= p < |alive| && alive[p] == x;
  }

  /** The first top option is the only one `FirstTop` can describe. */
  lemma FirstTopUnique(alive: seq<nat>, tally: multiset<Ballot>, x: nat)
    requires forall a, b :: 0 <= a < b < |alive| ==> alive[a] < alive[b]
    requires FirstTop(alive, tally, x)
    ensures Options(alive)[FirstMax(Options(alive), tally)] == For(x)
  {
    var keys := Options(alive);
    var k := FirstMax(keys, tally);
    var p := OptionsCover(alive, x);
    assert tally[keys[k]] == tally[keys[p]] by {
      if k < |alive| {
        assert keys[k] == For(alive[k]) && alive[k] in alive;
      }
    }
    assert k < |alive| ==> alive[k] in alive;
    assert k == p;
  }

  /** When the first top option is a player, that player satisfies `FirstTop`. */
  lemma FirstMaxIsFirstTop(alive: seq<nat>, tally: multiset<Ballot>)
    requires forall a, b :: 0 <= a < b < |alive| ==> alive[a] < alive[b]
    requires FirstMax(Options(alive), tally) < |alive|
    ensures FirstTop(alive, tally, alive[FirstMax(Options(alive), tally)])
  {
    var keys := Options(alive);
    var k := FirstMax(keys, tally);
    assert keys[k] == For(alive[k]) && keys[|alive|] == Skip;
    forall y | y in alive ensures tally[For(y)] <= tally[For(alive[k])] {
      var m := OptionsCover(alive, y);
    }
    forall y | y in alive && y < alive[k] ensures tally[For(y)] < tally[For(alive[k])] {
      var m := OptionsCover(alive, y);
      assert m < k;
    }
  }

  /** The meeting's verdict over ballots `votes`: the first top option, if it is a player with at least 2 votes. */
  function Verdict(alive: seq<nat>, votes: seq<Ballot>): (out: Option<nat>)
    requires forall a, b :: 0 <= a < b < |alive| ==> alive[a] < alive[b]
    ensures out.Some? ==> FirstTop(alive, multiset(votes), out.value) && multiset(votes)[For(out.value)] >= 2
    ensures out.None? ==> forall x :: !(FirstTop(alive, multiset(votes), x) && multiset(votes)[For(x)] >= 2)
  {
    var tally := multiset(votes);
    var keys := Options(alive);
    var k := FirstMax(keys, tally);
    var top := keys[k];
    assert forall x :: FirstTop(alive, tally, x) ==> top == For(x) by {
      forall x | FirstTop(alive, tally, x) ensures top == For(x) {
        FirstTopUnique(alive, tally, x);
      }
    }
    if top != Skip && tally[top] >= 2 then
      assert k < |alive|;
      FirstMaxIsFirstTop(alive, tally);
      Some(alive[k])
    else None
  }

  /** Who leaves the meeting, if anybody: the verdict on the ballots of the living. */
  function MeetingVerdict(ps: seq<PyPlayer>, rolls: seq<PyVoteRoll>): (out: Option<nat>)
    requires |Living(ps)| >= 2
    ensures out.Some? ==> out.value < |ps| && ps[out.value].alive
    ensures out == Verdict(Living(ps), PyBallots(Living(ps), rolls))
  {
    Verdict(Living(ps), PyBallots(Living(ps), rolls))
  }

  /**
   * `meeting`: with two or fewer alive nothing happens; otherwise everybody
   * alive votes, the verdict's player (if any) is ejected, and all bodies are
   * cleared.
   */
  function PyMeeting(g: PySim, rolls: seq<PyVoteRoll>): (r: PySim)
    ensures |Living(g.players)| <= 2 ==> r == g
    ensures |Living(g.players)| > 2 ==>
      && r.bodies == [] && r.round == g.round && |r.players| == |g.players|
      && forall j :: 0 <= j < |g.players| ==>
           r.players[j] == g.players[j].(alive := g.players[j].alive && MeetingVerdict(g.players, rolls) != Some(j))
    ensures PyEvolves(g.players, r.players)
    ensures forall j :: 0 <= j < |g.players| && !g.players[j].alive ==> r.players[j] == g.players[j]
    ensures forall j :: 0 <= j < |g.players| ==> r.players[j].room == g.players[j].room
  {
    if |Living(g.players)| <= 2 then g
    else
      var out := MeetingVerdict(g.players, rolls);
      var ps := if out.Some? then g.players[out.value := g.players[out.value].(alive := false)] else g.players;
      g.(players := ps, bodies := [])
  }

  /**
   * `maybe_report`: only the first body counts; a living player in its room
   * and the 0.5 roll call the meeting.
   */
  function MaybeReport(g: PySim, roll: bool, votes: seq<PyVoteRoll>): (r: PySim)
    ensures |g.bodies| == 0 || !roll ==> r == g
    ensures |g.bodies| > 0 && roll && (exists j :: 0 <= j < |g.players| && g.players[j].alive && g.players[j].room == g.bodies[0].room) ==>
      r == PyMeeting(g, votes)
    ensures |g.bodies| > 0 && (forall j :: 0 <= j < |g.players| && g.players[j].alive ==> g.players[j].room != g.bodies[0].room) ==>
      r == g
    ensures PyEvolves(g.players, r.players) && r.round == g.round
    ensures forall j :: 0 <= j < |g.players| && !g.players[j].alive ==> r.players[j] == g.players[j]
    ensures forall j :: 0 <= j < |g.players| ==> r.players[j].room == g.players[j].room
  {
    if |g.bodies| == 0 then g
    else
      var room := g.bodies[0].room;
      if roll && exists j :: 0 <= j < |g.players| && g.players[j].alive && g.players[j].room == room then PyMeeting(g, votes)
      else g
  }

  // ---------------------------------------------------------------------
  // Tick and run

  /**
   * The bots of `order[k..]` play their turns. The order is the list of the
   * living taken when the round starts, so a bot killed earlier in the round
   * still plays.
   */
  function PlayAll(g: PySim, order: seq<nat>, k: nat, rolls: seq<PyTurnRoll>): (r: PySim)
    requires k <= |order|
    requires forall m :: 0 <= m < |order| ==> order[m] < |g.players|
    ensures PyEvolves(g.players, r.players) && r.round == g.round
    ensures TurnsMoved(g.players, r.players, order, k)
    decreases |order| - k
  {
    if k == |order| then g
    else
      var g1 := PlayTurn(g, order[k], TurnAt(rolls, k));
      var r := PlayAll(g1, order, k + 1, rolls);
      PyEvolvesTransitive(g.players, g1.players, r.players);
      MovesCompose(g.players, g1.players, r.players, order, k);
      r
  }

  /**
   * A round as the roster sees it: every bot alive at its start took one
   * corridor, and every bot dead at its start is untouched.
   */
  predicate EveryoneMoved(ps: seq<PyPlayer>, qs: seq<PyPlayer>)
    requires |qs| == |ps|
  {
    && (forall j :: 0 <= j < |ps| && !ps[j].alive ==> qs[j] == ps[j])
    && (forall j :: 0 <= j < |ps| && ps[j].alive ==> Linked(ps[j].room, qs[j].room))
  }

  /**
   * The turns `order[k..]` as the roster sees them: a bot outside them keeps
   * its room, and is untouched if dead; when no bot has two turns, each of
   * them took one corridor.
   */
  predicate TurnsMoved(ps: seq<PyPlayer>, qs: seq<PyPlayer>, order: seq<nat>, k: nat)
    requires k <= |order| && |qs| == |ps|
    requires forall m :: 0 <= m < |order| ==> order[m] < |ps|
  {
    && (forall j :: 0 <= j < |ps| && !ps[j].alive && j !in order[k..] ==> qs[j] == ps[j])
    && (forall j :: 0 <= j < |ps| && j !in order[k..] ==> qs[j].room == ps[j].room)
    && (Increasing(order) ==> forall m :: k <= m < |order| ==> Linked(ps[order[m]].room, qs[order[m]].room))
  }

  /** The bot of turn `k` took a corridor, and the later turns moved each later bot once. */
  lemma MovesCompose(ps: seq<PyPlayer>, ps1: seq<PyPlayer>, qs: seq<PyPlayer>, order: seq<nat>, k: nat)
    requires k < |order| && |ps1| == |ps| && |qs| == |ps|
    requires forall m :: 0 <= m < |order| ==> order[m] < |ps|
    requires Linked(ps[order[k]].room, ps1[order[k]].room)
    requires forall j :: 0 <= j < |ps| && j != order[k] ==> ps1[j].room == ps[j].room
    requires forall j :: 0 <= j < |ps| && j != order[k] && !ps[j].alive ==> ps1[j] == ps[j]
    requires TurnsMoved(ps1, qs, order, k + 1)
    ensures TurnsMoved(ps, qs, order, k)
  {
    assert order[k..] == [order[k]] + order[k + 1..];
    if Increasing(order) {
      assert order[k] !in order[k + 1..];
      forall m | k < m < |order|
        ensures Linked(ps[order[m]].room, qs[order[m]].room)
      {
        assert order[m] != order[k];
      }
    }
  }

  /** The turns of everyone alive, followed by a meeting that moves nobody, are a round where everyone moved. */
  lemma RoundMoved(ps: seq<PyPlayer>, played: seq<PyPlayer>, qs: seq<PyPlayer>, order: seq<nat>)
    requires |played| == |ps| && |qs| == |ps|
    requires forall j: nat :: j in order <==> j < |ps| && ps[j].alive
    requires Increasing(order) && forall m :: 0 <= m < |order| ==> order[m] < |ps|
    requires TurnsMoved(ps, played, order, 0)
    requires forall j :: 0 <= j < |ps| && !played[j].alive ==> qs[j] == played[j]
    requires forall j :: 0 <= j < |ps| ==> qs[j].room == played[j].room
    ensures EveryoneMoved(ps, qs)
  {
    assert order[0..] == order;
    forall j | 0 <= j < |ps| && ps[j].alive
      ensures Linked(ps[j].room, qs[j].room)
    {
      var m :| 0 <= m < |order| && order[m] == j;
    }
  }

  /**
   * `tick`: next round, every bot alive at its start plays, then maybe a
   * report. Bots dead at the start of the round are not touched.
   */
  function PyTick(g: PySim, roll: PyTickRoll): (r: PySim)
    ensures r.round == g.round + 1
    ensures PyEvolves(g.players, r.players)
    ensures EveryoneMoved(g.players, r.players)
  {
    var g1 := g.(round := g.round + 1);
    var order := Living(g1.players);
    var played := PlayAll(g1, order, 0, roll.turns);
    assert order[0..] == order;
    var r := MaybeReport(played, roll.report, roll.votes);
    RoundMoved(g.players, played.players, r.players, order);
    PyEvolvesTransitive(g.players, played.players, r.players);
    r
  }

  /** `task_progress`: finished and total tasks of every crewmate, the dead included. */
  function TaskProgress(ps: seq<PyPlayer>): (r: (nat, nat))
    ensures r.0 <= r.1
    ensures r.0 == r.1 <==> forall j :: 0 <= j < |ps| && !ps[j].impostor ==> UndoneCount(ps[j].tasks) == 0
  {
    if |ps| == 0 then (0, 0)
    else
      var rest := TaskProgress(ps[1..]);
      assert forall j :: 1 <= j < |ps| ==> ps[j] == ps[1..][j - 1];
      if ps[0].impostor then rest
      else (rest.0 + (|ps[0].tasks| - UndoneCount(ps[0].tasks)), rest.1 + |ps[0].tasks|)
  }

  /** `win_state`: no impostor left, then parity, then every crew task done (the dead's included). */
  function WinState(g: PySim): (w: Option<(Team, EndCause)>)
    ensures PyCountAlive(g.players, true) == 0 ==> w == Some((Crewmates, ImpostorsEliminated))
    ensures PyCountAlive(g.players, true) > 0 && PyCountAlive(g.players, true) >= PyCountAlive(g.players, false) ==>
      w == Some((Impostors, Parity))
    ensures 0 < PyCountAlive(g.players, true) < PyCountAlive(g.players, false) ==>
      (w.Some? <==> forall j :: 0 <= j < |g.players| && !g.players[j].impostor ==> UndoneCount(g.players[j].tasks) == 0)
    ensures w.Some? && w.value.0 == Crewmates ==> w.value.1 != Parity
  {
    var crew := PyCountAlive(g.players, false);
    var imps := PyCountAlive(g.players, true);
    if imps == 0 then Some((Crewmates, ImpostorsEliminated))
    else if imps >= crew then Some((Impostors, Parity))
    else
      var (done, total) := TaskProgress(g.players);
      if done == total then Some((Crewmates, TasksCompleted)) else None
  }

  function TickRollAt(rolls: seq<PyTickRoll>, k: nat): PyTickRoll {
    if k < |rolls| then rolls[k] else PyTickRoll([], false, [])
  }

  /**
   * `run`: ticks until a side wins or the round counter reaches
   * `maxRounds`; the `k`-th tick uses `rolls[k]`.
   */
  function Run(g: PySim, maxRounds: int, rolls: seq<PyTickRoll>, k: nat): (r: (PySim, Option<(Team, EndCause)>))
    ensures r.1.Some? ==> r.1 == WinState(r.0) && r.0.round > g.round
    ensures r.1.None? ==> r.0.round >= maxRounds
    ensures g.round >= maxRounds ==> r == (g, None)
    ensures g.round < maxRounds ==> r.0.round <= maxRounds
    ensures PyEvolves(g.players, r.0.players)
    decreases maxRounds - g.round
  {
    if g.round >= maxRounds then (g, None)
    else
      var t := PyTick(g, TickRollAt(rolls, k));
      assert t.round == g.round + 1 && PyEvolves(g.players, t.players);
      var w := WinState(t);
      if w.Some? then (t, w)
      else
        var r := Run(t, maxRounds, rolls, k + 1);
        PyEvolvesTransitive(g.players, t.players, r.0.players);
        r
  }

  // ---------------------------------------------------------------------
  // The round's roster is taken before anybody moves

  /** An impostor in Admin, one corridor from a crewmate in Cafeteria whose task is in UpperEngine. */
  function CorridorAmbush(): PySim {
    PySim([PyPlayer(true, true, Admin, 0, []), PyPlayer(false, true, Cafeteria, 0, [Task(UpperEngine, false)])], 1, [])
  }

  /** Both bots take the first corridor and win their act roll; nobody reports. */
  function AmbushRolls(): PyTickRoll {
    PyTickRoll([PyTurnRoll(0, true, 0), PyTurnRoll(0, true, 0)], false, [])
  }

  /** The impostor's turn: into Cafeteria, and the crewmate there dies. */
  lemma AmbushStrike()
    ensures var t := PlayTurn(CorridorAmbush().(round := 2), 0, AmbushRolls().turns[0]);
      && |t.players| == 2 && !t.players[1].alive && t.players[1].room == Cafeteria
      && t.players[1].tasks == [Task(UpperEngine, false)] && !t.players[1].impostor && t.players[0].impostor
  {
    var g1 := CorridorAmbush().(round := 2);
    var moved := MovePlayer(g1.players[0], 0);
    assert moved.room == Cafeteria;
    var g2 := g1.(players := g1.players[0 := moved]);
    var victims := Victims(g2.players, 0, 0);
    assert 1 in victims;
    assert forall j :: j in victims ==> j == 1;
    assert Pick(victims, 0) == 1;
  }

  /**
   * The impostor walks into Cafeteria and kills the crewmate there; the
   * crewmate was alive when the round started, so it still walks on into
   * UpperEngine and finishes its task there, which counts towards the
   * crew's task total.
   */
  lemma DeadStillPlay()
    ensures var r := PyTick(CorridorAmbush(), AmbushRolls());
      && !r.players[1].alive && r.players[1].room == UpperEngine && r.players[1].tasks[0].done
      && TaskProgress(r.players) == (1, 1)
  {
    var g1 := CorridorAmbush().(round := 2);
    var order := Living(g1.players);
    assert 0 in order && 1 in order;
    assert order == [0, 1];
    var rolls := AmbushRolls().turns;
    AmbushStrike();
    var t0 := PlayTurn(g1, 0, rolls[0]);
    var t1 := AmbushAftermath(t0);
    assert PlayAll(g1, order, 0, rolls) == t1;
  }

  /** The dead crewmate's turn: into UpperEngine, where it finishes its task. */
  lemma AmbushAftermath(t: PySim) returns (r: PySim)
    requires |t.players| == 2 && !t.players[1].alive && t.players[1].room == Cafeteria
    requires t.players[1].tasks == [Task(UpperEngine, false)] && !t.players[1].impostor && t.players[0].impostor
    ensures r == PlayTurn(t, 1, AmbushRolls().turns[1])
    ensures !r.players[1].alive && r.players[1].room == UpperEngine && r.players[1].tasks == [Task(UpperEngine, true)]
    ensures TaskProgress(r.players) == (1, 1)
  {
    r := PlayTurn(t, 1, AmbushRolls().turns[1]);
    assert MovePlayer(t.players[1], 0).room == UpperEngine;
    assert 0 in OpenHere(t.players[1].tasks, UpperEngine, 0);
    assert r.players[1].tasks == [Task(UpperEngine, true)];
    var ps := r.players;
    assert ps[1..][1..] == [] && ps[1..][0] == ps[1];
    assert UndoneCount(ps[1].tasks) == 0;
    assert TaskProgress(ps[1..]) == (1, 1);
    assert ps[0].impostor;
  }
}

=== FILE: rooms.dfy ===
/** The fixed fourteen-room map that both simulators play on. */
module Rooms {

  datatype Room =
    | Cafeteria | Weapons | O2 | Navigation | Shields | Communications | Storage
    | Admin | Electrical | LowerEngine | Reactor | Security | MedBay | UpperEngine

  /** Every room, in the order the map defines them. */
  const AllRooms: seq<Room> :=
    [Cafeteria, Weapons, O2, Navigation, Shields, Communications, Storage,
     Admin, Electrical, LowerEngine, Reactor, Security, MedBay, UpperEngine]

  const RoomSet: set<Room> := set r | r in AllRooms

  /** The corridors out of a room, in the order the path search tries them. */
  function Links(r: Room): seq<Room> {
    match r
    case Cafeteria => [UpperEngine, MedBay, Weapons, Admin]
    case Weapons => [Cafeteria, O2, Navigation]
    case O2 => [Weapons, Navigation, Shields]
    case Navigation => [Weapons, O2, Shields]
    case Shields => [O2, Navigation, Communications, Storage]
    case Communications => [Shields, Storage]
    case Storage => [Admin, Electrical, Communications, Shields, LowerEngine]
    case Admin => [Cafeteria, Storage]
    case Electrical => [Storage, LowerEngine, Security]
    case LowerEngine => [Electrical, Reactor, Storage]
    case Reactor => [Security, LowerEngine, UpperEngine]
    case Security => [Reactor, Electrical, MedBay]
    case MedBay => [Cafeteria, Security, UpperEngine]
    case UpperEngine => [Reactor, MedBay, Cafeteria]
  }

  /** Vent shortcuts: usable only by impostors, and not corridors for path search. */
  function Vents(r: Room): seq<Room> {
    match r
    case Electrical => [MedBay, Security]
    case MedBay => [Electrical, Security]
    case Security => [Electrical, MedBay]
    case Cafeteria => [Admin]
    case Admin => [Cafeteria]
    case _ => []
  }

  predicate Linked(a: Room, b: Room) {
    b in Links(a)
  }

  lemma EveryRoomListed(r: Room)
    ensures r in RoomSet
  {
  }

  /** Corridors run both ways. */
  lemma LinksSymmetric(a: Room, b: Room)
    requires Linked(a, b)
    ensures Linked(b, a)
  {
  }

  /** No corridor leads back into the room it leaves. */
  lemma LinksIrreflexive(a: Room)
    ensures !Linked(a, a)
  {
  }

  /** Vents run both ways and never lead back into the same room. */
  lemma VentsSymmetric(a: Room, b: Room)
    requires b in Vents(a)
    ensures a in Vents(b) && a != b
  {
  }
}

=== FILE: sabotage.dfy ===
/**
 * The sabotage lifecycle of the browser engine: `triggerSabotage` arms one,
 * crew repairs raise its fix count, and `processSabotage` either clears it or
 * counts its timer down towards a meltdown.
 *
 * The fix rooms and the number of fixes needed never change once a sabotage
 * is armed, so they are derived from its kind instead of being stored.
 */
module SabotageRules {
  import opened Util
  import opened Rooms

  datatype SabotageKind = Lights | ReactorMeltdown | OxygenDepletion

  function FixRooms(k: SabotageKind): (rs: seq<Room>)
    ensures |rs| > 0
  {
    match k
    case Lights => [Electrical]
    case ReactorMeltdown => [Reactor, Security]
    case OxygenDepletion => [O2, Admin]
  }

  function FixesNeeded(k: SabotageKind): nat {
    match k
    case Lights => 1
    case _ => 2
  }

  function InitialTimer(k: SabotageKind): int {
    match k
    case Lights => 7
    case _ => 8
  }

  /** Rounds before the next sabotage may be armed. */
  const RearmDelay: nat := 8

  datatype Sabotage = Sabotage(kind: SabotageKind, timer: int, fixes: nat)

  /** The sabotage slot of the game state with its cooldown. */
  datatype Alarm = Alarm(active: Option<Sabotage>, cooldown: nat)

  /** A freshly armed sabotage: full timer, no fixes yet. */
  predicate Fresh(s: Sabotage) {
    s.timer == InitialTimer(s.kind) && s.fixes == 0
  }

  /**
   * `triggerSabotage`: with nothing active, the cooldown elapsed and the roll
   * won, arm a sabotage of kind `kind` and restart the cooldown; otherwise
   * change nothing.
   */
  function Trigger(a: Alarm, roll: bool, kind: SabotageKind): (b: Alarm)
    ensures b != a <==> a.active.None? && a.cooldown == 0 && roll
    ensures b != a ==> b.active.Some? && Fresh(b.active.value) && b.active.value.kind == kind && b.cooldown == RearmDelay
  {
    if a.active.Some? || a.cooldown > 0 || !roll then a
    else Alarm(Some(Sabotage(kind, InitialTimer(kind), 0)), RearmDelay)
  }

  /** One crew repair in a fix room. */
  function Repair(s: Sabotage): (t: Sabotage)
    ensures t.kind == s.kind && t.timer == s.timer && t.fixes == s.fixes + 1
  {
    s.(fixes := s.fixes + 1)
  }

  datatype Outcome = Resolved | Running(s: Sabotage) | Meltdown(s: Sabotage)

  /**
   * `processSabotage` on an active sabotage: cleared once enough fixes are in,
   * otherwise one round off the timer, and a meltdown when it reaches 0 or less.
   */
  function Process(s: Sabotage): (o: Outcome)
    ensures o.Resolved? <==> s.fixes >= FixesNeeded(s.kind)
    ensures !o.Resolved? ==> o.s == s.(timer := s.timer - 1)
    ensures o.Running? <==> s.fixes < FixesNeeded(s.kind) && s.timer > 1
  {
    if s.fixes >= FixesNeeded(s.kind) then Resolved
    else
      var t := s.(timer := s.timer - 1);
      if t.timer <= 0 then Meltdown(t) else Running(t)
  }

  /** `n` rounds of `processSabotage` with no repair in between, stopping when it is no longer running. */
  function Unattended(s: Sabotage, n: nat): Outcome
    decreases n
  {
    if n == 0 then Running(s)
    else
      match Process(s)
      case Running(t) => Unattended(t, n - 1)
      case other => other
  }

  /**
   * Left alone, a sabotage with `timer` rounds on the clock keeps running for
   * `timer - 1` rounds and melts down on round `timer`, never earlier.
   */
  lemma {:induction false} UnattendedMeltdown(s: Sabotage, n: nat)
    requires s.fixes < FixesNeeded(s.kind) && s.timer >= 1
    ensures n < s.timer ==> Unattended(s, n) == Running(s.(timer := s.timer - n))
    ensures n >= s.timer ==> Unattended(s, n) == Meltdown(s.(timer := 0))
    decreases n
  {
    if n > 0 {
      if s.timer > 1 {
        UnattendedMeltdown(s.(timer := s.timer - 1), n - 1);
      }
    }
  }

  /** A freshly armed sabotage that nobody fixes ends the game exactly on round 7 (lights) or 8. */
  lemma FreshSabotageDeadline(a: Alarm, kind: SabotageKind)
    requires a.active.None? && a.cooldown == 0
    ensures var s := Trigger(a, true, kind).active.value;
      && Unattended(s, InitialTimer(kind) - 1).Running?
      && Unattended(s, InitialTimer(kind)).Meltdown?
  {
    var s := Trigger(a, true, kind).active.value;
    UnattendedMeltdown(s, InitialTimer(kind) - 1);
    UnattendedMeltdown(s, InitialTimer(kind));
  }
}

=== FILE: state.dfy ===
/**
 * The browser engine's game state, the win check (`checkWin`, `endGame`,
 * `crewTasksLeft`) and the sabotage step of a tick (`processSabotage`).
 */
module Game {
  import opened Util
  import opened Rooms
  import opened Agents
  import opened SabotageRules
  import opened Council

  datatype Phase = Freeplay | MeetingDiscussion | MeetingResolving | MeetingVote | GameOver

  /** A body left by an elimination; `victim` is the dead player's id. */
  datatype Body = Body(victim: nat, room: Room, reported: bool)

  datatype MeetingReason = BodyReported | EmergencyCalled

  datatype Meeting = Meeting(
    reason: MeetingReason,
    timer: int,
    reporter: nat,
    body: Option<nat>,
    statements: seq<Statement>,
    votes: Option<multiset<Ballot>>)

  datatype Team = Crewmates | Impostors

  datatype EndCause = ImpostorsEliminated | Parity | TasksCompleted | SabotageExpired(kind: SabotageKind)

  datatype GameState = GameState(
    round: int,
    phase: Phase,
    players: seq<Player>,
    bodies: seq<Body>,
    meeting: Option<Meeting>,
    resolving: bool,
    meetingCooldown: nat,
    alarm: Alarm,
    gameOver: bool,
    winner: Option<Team>,
    reason: Option<EndCause>)

  // ---------------------------------------------------------------------
  // Head counts

  /** Living players on one side (`impostor` selects the side). */
  function CountAlive(ps: seq<Player>, impostor: bool): (n: nat)
    ensures n <= |ps|
    ensures n == 0 <==> forall i :: 0 <= i < |ps| ==> !(ps[i].alive && ps[i].impostor == impostor)
  {
    if |ps| == 0 then 0
    else
      var rest := CountAlive(ps[1..], impostor);
      assert forall i :: 1 <= i < |ps| ==> ps[i] == ps[1..][i - 1];
      (if ps[0].alive && ps[0].impostor == impostor then 1 else 0) + rest
  }

  /** `crewTasksLeft`: unfinished tasks of the living crew; the dead's tasks do not count. */
  function CrewTasksLeft(ps: seq<Player>): (n: nat)
    ensures n == 0 <==> forall i :: 0 <= i < |ps| && ps[i].alive && !ps[i].impostor ==> UndoneCount(ps[i].tasks) == 0
  {
    if |ps| == 0 then 0
    else
      var rest := CrewTasksLeft(ps[1..]);
      assert forall i :: 1 <= i < |ps| ==> ps[i] == ps[1..][i - 1];
      (if ps[0].alive && !ps[0].impostor then UndoneCount(ps[0].tasks) else 0) + rest
  }

  function LivingImpostors(g: GameState): nat { CountAlive(g.players, true) }
  function LivingCrew(g: GameState): nat { CountAlive(g.players, false) }

  /** One of `checkWin`'s three conditions holds. */
  predicate WinReached(g: GameState) {
    LivingImpostors(g) == 0 || LivingImpostors(g) >= LivingCrew(g) || CrewTasksLeft(g.players) == 0
  }

  // ---------------------------------------------------------------------
  // Ending the game

  /** The two states agree on everything but the end-of-game fields and the phase. */
  predicate SameBoard(g: GameState, r: GameState) {
    r == g.(phase := r.phase, gameOver := r.gameOver, winner := r.winner, reason := r.reason)
  }

  /** `endGame`: the game is over, with this winner and reason. */
  function EndGame(g: GameState, team: Team, cause: EndCause): (r: GameState)
    ensures SameBoard(g, r)
    ensures r.gameOver && r.phase == GameOver && r.winner == Some(team) && r.reason == Some(cause)
  {
    g.(gameOver := true, winner := Some(team), reason := Some(cause), phase := GameOver)
  }

  /** The side a win check hands the game to: the impostors when some live and match the crew, else the crew. */
  function WinningTeam(g: GameState): Team {
    if LivingImpostors(g) > 0 && LivingImpostors(g) >= LivingCrew(g) then Impostors else Crewmates
  }

  /**
   * `checkWin`: all impostors gone wins for the crew; failing that, impostors
   * at parity win for them; failing that, no task left among the living crew
   * wins for the crew. A state with none of these is left alone.
   */
  function CheckWin(g: GameState): (r: GameState)
    ensures SameBoard(g, r)
    ensures !WinReached(g) ==> r == g
    ensures WinReached(g) ==> r.gameOver && r.phase == GameOver
    ensures WinReached(g) ==>
      (r.winner == Some(Impostors) <==> LivingImpostors(g) > 0 && LivingImpostors(g) >= LivingCrew(g))
    ensures WinReached(g) ==> r.winner == Some(WinningTeam(g))
    ensures LivingImpostors(g) == 0 ==> r.reason == Some(ImpostorsEliminated)
    ensures LivingImpostors(g) > 0 && LivingImpostors(g) >= LivingCrew(g) ==> r.reason == Some(Parity)
    ensures LivingImpostors(g) > 0 && LivingImpostors(g) < LivingCrew(g) && CrewTasksLeft(g.players) == 0 ==>
      r.reason == Some(TasksCompleted)
    ensures r.reason == Some(TasksCompleted) <==>
      (LivingImpostors(g) > 0 && LivingImpostors(g) < LivingCrew(g) && CrewTasksLeft(g.players) == 0)
      || (!WinReached(g) && g.reason == Some(TasksCompleted))
  {
    if LivingImpostors(g) == 0 then EndGame(g, Crewmates, ImpostorsEliminated)
    else if LivingImpostors(g) >= LivingCrew(g) then EndGame(g, Impostors, Parity)
    else if CrewTasksLeft(g.players) == 0 then EndGame(g, Crewmates, TasksCompleted)
    else g
  }

  /**
   * With no impostor and no crew left alive, the first rule decides: the crew
   * wins, although the impostors are also "at parity".
   */
  lemma EmptyShipGoesToCrew(g: GameState)
    requires LivingImpostors(g) == 0 && LivingCrew(g) == 0
    ensures CheckWin(g).winner == Some(Crewmates)
  {
  }

  // ---------------------------------------------------------------------
  // Sabotage step

  /**
   * `processSabotage`: a sabotage with enough fixes is cleared; any other
   * loses one round off its timer and, at 0 or below, ends the game for the
   * impostors (the expired sabotage stays in place).
   */
  function ProcessSabotage(g: GameState): (r: GameState)
    ensures g.alarm.active.None? ==> r == g
    ensures g.alarm.active.Some? ==> r.alarm.cooldown == g.alarm.cooldown
    ensures g.alarm.active.Some? ==> r.players == g.players && r.bodies == g.bodies && r.round == g.round
    ensures g.alarm.active.Some? && g.alarm.active.value.fixes >= FixesNeeded(g.alarm.active.value.kind) ==>
      r == g.(alarm := g.alarm.(active := None))
    ensures g.alarm.active.Some? && g.alarm.active.value.fixes < FixesNeeded(g.alarm.active.value.kind) ==>
      var s := g.alarm.active.value;
      && r.alarm.active == Some(s.(timer := s.timer - 1))
      && (s.timer - 1 <= 0 ==> r.gameOver && r.winner == Some(Impostors) && r.reason == Some(SabotageExpired(s.kind)))
      && (s.timer - 1 > 0 ==> r == g.(alarm := r.alarm))
  {
    match g.alarm.active
    case None => g
    case Some(s) =>
      match Process(s)
      case Resolved => g.(alarm := g.alarm.(active := None))
      case Running(t) => g.(alarm := g.alarm.(active := Some(t)))
      case Meltdown(t) => EndGame(g.(alarm := g.alarm.(active := Some(t))), Impostors, SabotageExpired(s.kind))
  }

  // ---------------------------------------------------------------------
  // Roster helpers

  /** Ids of living players, in roster order (`alivePlayers()`). */
  function AliveIds(ps: seq<Player>): (ids: seq<nat>)
    ensures forall i: nat :: i in ids <==> i < |ps| && ps[i].alive
    ensures forall a, b :: 0 <= a < b < |ids| ==> ids[a] < ids[b]
    ensures forall k :: 0 <= k < |ids| ==> ids[k] < |ps|
  {
    var ids := AliveFrom(ps, 0);
    assert forall k :: 0 <= k < |ids| ==> ids[k] in ids;
    ids
  }

  function AliveFrom(ps: seq<Player>, from: nat): (ids: seq<nat>)
    requires from <= |ps|
    ensures forall i: nat :: i in ids <==> from <= i < |ps| && ps[i].alive
    ensures forall a, b :: 0 <= a < b < |ids| ==> from <= ids[a] < ids[b]
    decreases |ps| - from
  {
    if from == |ps| then []
    else
      var rest := AliveFrom(ps, from + 1);
      assert forall k :: 0 <= k < |rest| ==> rest[k] in rest;
      if ps[from].alive then [from] + rest else rest
  }

  /**
   * A step of the game keeps the roster: same players with the same roles,
   * the dead stay dead, and finished tasks stay finished.
   */
  predicate Evolves(g: GameState, r: GameState) {
    && |r.players| == |g.players|
    && forall i :: 0 <= i < |g.players| ==>
         && r.players[i].impostor == g.players[i].impostor
         && (!g.players[i].alive ==> !r.players[i].alive)
         && TasksAdvance(g.players[i].tasks, r.players[i].tasks)
  }

  lemma EvolvesTransitive(a: GameState, b: GameState, c: GameState)
    requires Evolves(a, b) && Evolves(b, c)
    ensures Evolves(a, c)
  {
  }
}

=== FILE: ticks.dfy ===
/**
 * The browser engine's `tick`: the round counter and cooldowns move on,
 * suspicion fades, and then either every living bot takes a freeplay turn
 * (stopping at the first meeting) followed by the sabotage step, or the
 * meeting timer moves on; the tick ends with the win check.
 */
module Ticks {
  import opened Util
  import opened Rooms
  import opened Agents
  import opened SabotageRules
  import opened Council
  import opened Game
  import opened Turns
  import opened Meetings

  /** Every player's suspicion map after one round of fading. */
  function DecayAll(ps: seq<Player>): (qs: seq<Player>)
    ensures |qs| == |ps|
    ensures forall j :: 0 <= j < |ps| ==> qs[j] == ps[j].(suspicion := Decay(ps[j].suspicion))
  {
    seq(|ps|, j requires 0 <= j < |ps| => ps[j].(suspicion := Decay(ps[j].suspicion)))
  }

  /** The start of every live tick: next round, both cooldowns down by one, suspicion fades. */
  function Refresh(g: GameState): (r: GameState)
    ensures r.round == g.round + 1
    ensures r.alarm == g.alarm.(cooldown := CountDown(g.alarm.cooldown))
    ensures r.meetingCooldown == CountDown(g.meetingCooldown)
    ensures |r.players| == |g.players|
    ensures forall j :: 0 <= j < |g.players| ==> r.players[j] == g.players[j].(suspicion := r.players[j].suspicion)
    ensures forall j :: 0 <= j < |g.players| ==> Settled(r.players[j].suspicion)
    ensures r == g.(round := r.round, alarm := r.alarm, meetingCooldown := r.meetingCooldown, players := r.players)
  {
    g.(round := g.round + 1,
       alarm := g.alarm.(cooldown := CountDown(g.alarm.cooldown)),
       meetingCooldown := CountDown(g.meetingCooldown),
       players := DecayAll(g.players))
  }

  /** The dice of bot `i`; a bot without dice of its own gets the all-failing ones. */
  function DiceAt(dice: seq<Dice>, i: nat): Dice {
    if i < |dice| then dice[i] else Unlucky
  }

  /**
   * What a freeplay turn, and so a freeplay pass, may do to the state: the
   * roster evolves, the round and the end-of-game and resolving flags stay,
   * and either freeplay goes on with the meeting slot untouched or a
   * discussion has opened.
   */
  predicate PassKeeps(g: GameState, r: GameState) {
    && Evolves(g, r)
    && r.round == g.round && r.gameOver == g.gameOver && r.resolving == g.resolving
    && (r.phase == Freeplay || r.phase == MeetingDiscussion)
    && (r.phase == Freeplay ==> r.meeting == g.meeting)
  }

  lemma PassKeepsTransitive(a: GameState, b: GameState, c: GameState)
    requires PassKeeps(a, b) && PassKeeps(b, c) && b.phase == Freeplay
    ensures PassKeeps(a, c)
  {
    EvolvesTransitive(a, b, c);
  }

  /** Nobody dead is touched: no move, no task, no change of mind. */
  predicate DeadUntouched(g: GameState, r: GameState) {
    forall j :: 0 <= j < |g.players| && j < |r.players| && !g.players[j].alive ==> r.players[j] == g.players[j]
  }

  /** One bot's freeplay turn, by role. */
  function Turn(g: GameState, i: nat, d: Dice): (r: GameState)
    requires i < |g.players| && g.phase == Freeplay
    ensures PassKeeps(g, r)
    ensures g.players[i].alive ==> DeadUntouched(g, r)
    ensures g.players[i].impostor ==> r == ImpostorTurn(g, i, d)
    ensures !g.players[i].impostor ==> r == CrewTurn(g, i, d)
  {
    if g.players[i].impostor then ImpostorTurn(g, i, d) else CrewTurn(g, i, d)
  }

  /** Bot `k`'s place in the freeplay loop: its turn when alive; a dead bot is skipped. */
  function TurnOrSkip(g: GameState, k: nat, dice: seq<Dice>): (r: GameState)
    requires k < |g.players| && g.phase == Freeplay
    ensures PassKeeps(g, r) && DeadUntouched(g, r)
    ensures !g.players[k].alive ==> r == g
    ensures g.players[k].alive ==> r == Turn(g, k, DiceAt(dice, k))
  {
    if g.players[k].alive then Turn(g, k, DiceAt(dice, k)) else g
  }

  lemma DeadUntouchedTransitive(a: GameState, b: GameState, c: GameState)
    requires DeadUntouched(a, b) && DeadUntouched(b, c) && |a.players| == |b.players|
    ensures DeadUntouched(a, c)
  {
    forall j | 0 <= j < |a.players| && j < |c.players| && !a.players[j].alive
      ensures c.players[j] == a.players[j]
    {
      assert b.players[j] == a.players[j];
    }
  }

  /**
   * The freeplay loop of `tick` from bot `from` on, read from the back: the
   * first bot takes its turn (or is skipped when dead), and unless that
   * opened a meeting the rest of the pass follows. No dead bot is touched.
   */
  function AgentPass(g: GameState, from: nat, dice: seq<Dice>): (r: GameState)
    requires from <= |g.players| && g.phase == Freeplay
    ensures PassKeeps(g, r) && DeadUntouched(g, r)
    decreases |g.players| - from
  {
    if from == |g.players| then g
    else
      var t := TurnOrSkip(g, from, dice);
      if t.phase != Freeplay then t
      else
        var r := AgentPass(t, from + 1, dice);
        PassKeepsTransitive(g, t, r);
        DeadUntouchedTransitive(g, t, r);
        r
  }

  /**
   * The same loop read from the front, as the engine's `for` over the
   * roster: the state once bots `from` to `n - 1` have had their turns,
   * where a turn that leaves freeplay breaks the loop. No dead bot is touched.
   */
  function PassUpTo(g: GameState, from: nat, n: nat, dice: seq<Dice>): (r: GameState)
    requires from <= n <= |g.players| && g.phase == Freeplay
    ensures PassKeeps(g, r) && DeadUntouched(g, r)
    decreases n
  {
    if n == from then g
    else
      var s := PassUpTo(g, from, n - 1, dice);
      if s.phase != Freeplay then s
      else
        var r := TurnOrSkip(s, n - 1, dice);
        PassKeepsTransitive(g, s, r);
        DeadUntouchedTransitive(g, s, r);
        r
  }

  /** Once a turn has opened a meeting, no later bot moves: the loop has broken. */
  lemma {:induction false} BreakIsFinal(g: GameState, from: nat, m: nat, n: nat, dice: seq<Dice>)
    requires from <= m <= n <= |g.players| && g.phase == Freeplay
    requires PassUpTo(g, from, m, dice).phase != Freeplay
    ensures PassUpTo(g, from, n, dice) == PassUpTo(g, from, m, dice)
    decreases n
  {
    if n > m {
      BreakIsFinal(g, from, m, n - 1, dice);
      assert PassUpTo(g, from, n - 1, dice) == PassUpTo(g, from, m, dice);
      PassUpToStops(g, from, n, dice);
    }
  }

  lemma PassUpToStops(g: GameState, from: nat, n: nat, dice: seq<Dice>)
    requires from < n <= |g.players| && g.phase == Freeplay
    requires PassUpTo(g, from, n - 1, dice).phase != Freeplay
    ensures PassUpTo(g, from, n, dice) == PassUpTo(g, from, n - 1, dice)
  {
  }

  lemma PassStep(g: GameState, k: nat, dice: seq<Dice>)
    requires k < |g.players| && g.phase == Freeplay
    ensures var t := TurnOrSkip(g, k, dice);
      AgentPass(g, k, dice) == if t.phase != Freeplay then t else AgentPass(t, k + 1, dice)
  {
  }

  lemma PassUpToStep(g: GameState, from: nat, n: nat, dice: seq<Dice>)
    requires from < n <= |g.players| && g.phase == Freeplay
    requires PassUpTo(g, from, n - 1, dice).phase == Freeplay
    ensures PassUpTo(g, from, n, dice) == TurnOrSkip(PassUpTo(g, from, n - 1, dice), n - 1, dice)
  {
  }

  /** The split after bot `n - 1`: the pass so far, and what is left of it. */
  predicate SplitAt(g: GameState, from: nat, n: nat, dice: seq<Dice>)
    requires from <= n <= |g.players| && g.phase == Freeplay
  {
    var s := PassUpTo(g, from, n, dice);
    AgentPass(g, from, dice) == if s.phase != Freeplay then s else AgentPass(s, n, dice)
  }

  /** Before any turn, the pass is all that is left. */
  lemma SplitStart(g: GameState, from: nat, dice: seq<Dice>)
    requires from <= |g.players| && g.phase == Freeplay
    ensures SplitAt(g, from, from, dice)
  {
    assert PassUpTo(g, from, from, dice) == g;
  }

  /** Moving the split one bot later. */
  lemma SplitLater(g: GameState, from: nat, n: nat, dice: seq<Dice>)
    requires from < n <= |g.players| && g.phase == Freeplay
    requires SplitAt(g, from, n - 1, dice)
    ensures SplitAt(g, from, n, dice)
  {
    var s := PassUpTo(g, from, n - 1, dice);
    assert |s.players| == |g.players|;
    if s.phase == Freeplay {
      PassStep(s, n - 1, dice);
      PassUpToStep(g, from, n, dice);
    }
  }

  lemma {:induction false} SplitStep(g: GameState, from: nat, n: nat, dice: seq<Dice>)
    requires from < n <= |g.players| && g.phase == Freeplay
    ensures SplitAt(g, from, n, dice)
    decreases n, 0
  {
    PassSplit(g, from, n - 1, dice);
    SplitLater(g, from, n, dice);
  }

  /** The pass from bot `from` on, split after bot `n - 1`. */
  lemma {:induction false} PassSplit(g: GameState, from: nat, n: nat, dice: seq<Dice>)
    requires from <= n <= |g.players| && g.phase == Freeplay
    ensures SplitAt(g, from, n, dice)
    decreases n, 1
  {
    if n == from {
      SplitStart(g, from, dice);
    } else {
      SplitStep(g, from, n, dice);
    }
  }

  /** The two readings of the loop agree: the pass is the engine's `for` loop with its `continue` and `break`. */
  lemma AgentPassIsLoop(g: GameState, from: nat, dice: seq<Dice>)
    requires from <= |g.players| && g.phase == Freeplay
    ensures AgentPass(g, from, dice) == PassUpTo(g, from, |g.players|, dice)
  {
    PassSplit(g, from, |g.players|, dice);
  }

  /**
   * The end of a tick. A game the sabotage step already ended keeps its
   * result; otherwise `checkWin` decides.
   */
  function FinishTick(g: GameState): (r: GameState)
    ensures SameBoard(g, r)
    ensures g.gameOver ==> r == g
    ensures r.gameOver ==> r.phase == GameOver || g.gameOver
    ensures !r.gameOver ==> !WinReached(r)
    ensures !g.gameOver && WinReached(g) ==> r.gameOver && r.winner == Some(WinningTeam(g))
  {
    if g.gameOver then g else CheckWin(g)
  }

  /** The end of a tick as the engine has it: `checkWin` runs whether or not the game is already over. */
  function FinishTickAsWritten(g: GameState): (r: GameState)
    ensures SameBoard(g, r)
    ensures WinReached(g) ==> r.gameOver && r.winner == Some(WinningTeam(g))
    ensures !WinReached(g) ==> r == g
  {
    CheckWin(g)
  }

  /** The body of a live tick, before the win check. */
  function Advance(g: GameState, dice: seq<Dice>): (r: GameState)
    ensures Evolves(g, r)
    ensures r.round == g.round + 1
    ensures !g.gameOver && r.gameOver ==>
      g.phase == Freeplay && r.winner == Some(Impostors) && r.reason.Some? && r.reason.value.SabotageExpired?
    ensures g.gameOver ==> r.gameOver
    ensures InMeeting(g.phase) ==> r.alarm.active == g.alarm.active
  {
    var g1 := Refresh(g);
    assert Evolves(g, g1);
    if g1.phase == Freeplay then
      var g2 := AgentPass(g1, 0, dice);
      var r := ProcessSabotage(g2);
      EvolvesTransitive(g, g1, g2);
      r
    else if InMeeting(g1.phase) then
      UpdateMeeting(g1)
    else
      g1
  }

  /**
   * `tick`: nothing happens once the game is over or while a meeting is
   * resolving; otherwise the round is played and the win check runs.
   */
  function Tick(g: GameState, dice: seq<Dice>): (r: GameState)
    ensures g.gameOver || g.resolving ==> r == g
    ensures !g.gameOver && !g.resolving ==> r.round == g.round + 1
    ensures Evolves(g, r)
    ensures !g.resolving && !r.gameOver ==> !WinReached(r)
    ensures !g.gameOver && !g.resolving && Advance(g, dice).gameOver ==> r == Advance(g, dice)
    ensures !g.gameOver && !g.resolving && InMeeting(g.phase) ==> r.alarm.active == g.alarm.active
    ensures !g.gameOver && !g.resolving && !Advance(g, dice).gameOver && WinReached(Advance(g, dice)) ==>
      r.gameOver && r.winner == Some(WinningTeam(Advance(g, dice)))
    ensures !g.gameOver && !g.resolving && !WinReached(Advance(g, dice)) ==> r == Advance(g, dice)
  {
    if g.gameOver || g.resolving then g
    else FinishTick(Advance(g, dice))
  }

  /** The engine's `tick` as written, with the unconditional win check at the end. */
  function TickAsWritten(g: GameState, dice: seq<Dice>): (r: GameState)
    ensures g.gameOver || g.resolving ==> r == g
    ensures Evolves(g, r)
    ensures !g.gameOver && !g.resolving ==> SameBoard(Advance(g, dice), r)
    ensures !g.gameOver && !g.resolving && !WinReached(Advance(g, dice)) ==> r == Advance(g, dice)
    ensures !g.gameOver && !g.resolving && WinReached(Advance(g, dice)) ==>
      r.gameOver && r.winner == Some(WinningTeam(Advance(g, dice)))
  {
    if g.gameOver || g.resolving then g
    else FinishTickAsWritten(Advance(g, dice))
  }

  // ---------------------------------------------------------------------
  // The win check only looks at the roster

  /** Same players alive, same roles, same tasks. */
  predicate SameRoster(ps: seq<Player>, qs: seq<Player>) {
    && |ps| == |qs|
    && forall j :: 0 <= j < |ps| ==>
         ps[j].alive == qs[j].alive && ps[j].impostor == qs[j].impostor && ps[j].tasks == qs[j].tasks
  }

  lemma {:induction false} SameRosterSameCounts(ps: seq<Player>, qs: seq<Player>)
    requires SameRoster(ps, qs)
    ensures CountAlive(ps, true) == CountAlive(qs, true)
    ensures CountAlive(ps, false) == CountAlive(qs, false)
    ensures CrewTasksLeft(ps) == CrewTasksLeft(qs)
    decreases |ps|
  {
    if |ps| > 0 {
      assert SameRoster(ps[1..], qs[1..]) by {
        forall j | 0 <= j < |ps| - 1
          ensures ps[1..][j].alive == qs[1..][j].alive && ps[1..][j].impostor == qs[1..][j].impostor
          ensures ps[1..][j].tasks == qs[1..][j].tasks
        {
          assert ps[1..][j] == ps[j + 1] && qs[1..][j] == qs[j + 1];
        }
      }
      SameRosterSameCounts(ps[1..], qs[1..]);
    }
  }

  /**
   * A meeting tick cannot end the game: only the meeting timer and the
   * scores move, and the roster the win check reads stays as it was.
   */
  lemma MeetingTickNeverEnds(g: GameState, dice: seq<Dice>)
    requires !g.gameOver && !g.resolving && InMeeting(g.phase)
    requires !WinReached(g)
    ensures !Tick(g, dice).gameOver
    ensures Tick(g, dice).players == Refresh(g).players
  {
    var u := MeetingAdvance(g, dice);
    SameRosterSameCounts(g.players, u.players);
  }

  /**
   * A free-play round: after the refresh every bot takes its turn in roster
   * order, as the engine's loop does, and then the sabotage timer runs.
   */
  lemma FreeplayAdvance(g: GameState, dice: seq<Dice>)
    requires g.phase == Freeplay
    ensures Advance(g, dice) == ProcessSabotage(PassUpTo(Refresh(g), 0, |g.players|, dice))
  {
    AgentPassIsLoop(Refresh(g), 0, dice);
  }

  /** In a meeting the body of a tick is the meeting update, which leaves the roster as it was. */
  lemma MeetingAdvance(g: GameState, dice: seq<Dice>) returns (u: GameState)
    requires !g.gameOver && InMeeting(g.phase)
    ensures u == Advance(g, dice) && u.players == Refresh(g).players && !u.gameOver
    ensures SameRoster(g.players, u.players)
  {
    u := UpdateMeeting(Refresh(g));
  }

  // ---------------------------------------------------------------------
  // Finding: the win check overwrites a sabotage win

  /**
   * The scene of the counterexample, at the start of a freeplay pass: bot 0
   * is an impostor ready to kill in Electrical next to bot 1, the crewmate
   * with the last unfinished tasks; bots 2 and 3 are idle crewmates in
   * Admin; the lights sabotage has one round left.
   */
  predicate StrikeScene(g: GameState) {
    && |g.players| == 4 && g.phase == Freeplay && g.bodies == []
    && g.alarm.active == Some(Sabotage(Lights, 1, 0))
    && g.players[0].alive && g.players[0].impostor && g.players[0].room == Electrical && g.players[0].killCooldown == 0
    && g.players[1].alive && !g.players[1].impostor && g.players[1].room == Electrical
    && forall j :: 2 <= j < 4 ==> g.players[j].alive && !g.players[j].impostor && g.players[j].room == Admin
  }

  /** The roster the win check reads after the strike: bot 1 dead, the rest alive with their tasks. */
  predicate StruckRoster(g: GameState, ps: seq<Player>) {
    && |ps| == 4 && |g.players| == 4
    && !ps[1].alive && ps[1].impostor == g.players[1].impostor && ps[1].tasks == g.players[1].tasks
    && forall j :: 0 <= j < 4 && j != 1 ==>
         ps[j].alive && ps[j].impostor == g.players[j].impostor && ps[j].tasks == g.players[j].tasks
  }

  /** The impostor's turn in the scene: it kills bot 1, and the lights stay out. */
  lemma StrikeTurn(g: GameState)
    requires StrikeScene(g)
    ensures var t := Turn(g, 0, StrikeFirst()[0]);
      && t.phase == Freeplay && t.alarm == g.alarm && StruckRoster(g, t.players)
      && (forall j :: 2 <= j < 4 ==> t.players[j].room == Admin)
  {
    var pre := ImpostorPrelude(g, 0, StrikeFirst()[0]);
    var crew := CrewIn(pre.players, Electrical, 0);
    assert 1 in crew;
    assert forall j :: j in crew ==> j == 1;
    assert Pick(crew, 0) == 1;
    assert Turn(g, 0, StrikeFirst()[0]) == Eliminate(pre, 0, 1);
  }

  /** Mid-pass in the scene that started as `g`: still freeplay, the lights still out, bot 1 dead. */
  predicate Struck(g: GameState, t: GameState) {
    t.phase == Freeplay && t.alarm == g.alarm && StruckRoster(g, t.players)
  }

  /** An idle crewmate's turn, every roll failing, while the lights are out: it walks, and nothing else changes. */
  lemma IdleWalk(g: GameState, t: GameState, i: nat)
    requires StrikeScene(g) && Struck(g, t) && 2 <= i < 4
    ensures Struck(g, Turn(t, i, Unlucky))
  {
    assert t.players[i].alive && !t.players[i].impostor && t.alarm.active.Some?;
    var r := CrewTurn(t, i, Unlucky);
    assert Turn(t, i, Unlucky) == r;
    WalkKeepsRoster(g, t.players, r.players, i);
  }

  /** A crewmate walking leaves the struck roster as it was. */
  lemma WalkKeepsRoster(g: GameState, ps: seq<Player>, qs: seq<Player>, i: nat)
    requires StruckRoster(g, ps) && |qs| == 4 && 2 <= i < 4 && Moved(ps[i], qs[i])
    requires forall j :: 0 <= j < 4 && j != i ==> qs[j] == ps[j]
    ensures StruckRoster(g, qs)
  {
  }

  /** The freeplay pass of the scene: the impostor kills bot 1, the other two walk, the lights stay out. */
  lemma StrikePass(g: GameState)
    requires StrikeScene(g)
    ensures Struck(g, AgentPass(g, 0, StrikeFirst()))
  {
    var dice := StrikeFirst();
    StrikeTurn(g);
    var t0 := Turn(g, 0, dice[0]);
    assert AgentPass(g, 0, dice) == AgentPass(t0, 1, dice);
    assert !t0.players[1].alive;
    assert AgentPass(t0, 1, dice) == AgentPass(t0, 2, dice);
    WalkFrom(g, t0, 2);
  }

  /** From bot `k` on, the rest of the scene's pass is idle crewmates walking. */
  lemma {:induction false} WalkFrom(g: GameState, t: GameState, k: nat)
    requires StrikeScene(g) && Struck(g, t) && 2 <= k <= 4
    ensures Struck(g, AgentPass(t, k, StrikeFirst()))
    decreases 4 - k
  {
    if k < 4 {
      IdleWalk(g, t, k);
      var t1 := Turn(t, k, Unlucky);
      assert AgentPass(t, k, StrikeFirst()) == AgentPass(t1, k + 1, StrikeFirst());
      WalkFrom(g, t1, k + 1);
    }
  }

  /**
   * The impostor and the crew's only unfinished task are in Electrical, two
   * more crewmates are in Admin, and the lights go out next round.
   */
  function LastRoundOfLights(): GameState {
    var impostor := Player(true, true, Electrical, 0, 1, [], map[], [Visit(0, Electrical)], None, Aggressive);
    var busy := Player(true, false, Electrical, 0, 1, [Task(Admin, false)], map[], [Visit(0, Electrical)], None, Careful);
    var idle := Player(true, false, Admin, 0, 1, [], map[], [Visit(0, Admin)], None, Social);
    GameState(5, Freeplay, [impostor, busy, idle, idle], [], None, false, 0,
              Alarm(Some(Sabotage(Lights, 1, 0)), 3), false, None, None)
  }

  /** The impostor strikes; every other roll fails. */
  function StrikeFirst(): seq<Dice> {
    [Unlucky.(kill := true)]
  }

  /** The roster after the strike in `LastRoundOfLights`. */
  function AfterStrike(): seq<Player> {
    var g := LastRoundOfLights();
    g.players[1 := g.players[1].(alive := false)]
  }

  /** Before the tick no side has won: one impostor against three crew with a task left. */
  lemma LastRoundOpen()
    ensures !WinReached(LastRoundOfLights())
  {
    var g := LastRoundOfLights();
    assert UndoneCount(g.players[1].tasks) == 1;
    assert CountAlive(g.players, true) == 1 && CountAlive(g.players, false) == 3;
  }

  /** After the strike the crew still outnumbers the impostor, and no living crewmate has a task left. */
  lemma AfterStrikeCounts()
    ensures CountAlive(AfterStrike(), true) == 1 && CountAlive(AfterStrike(), false) == 2
    ensures CrewTasksLeft(AfterStrike()) == 0
  {
  }

  lemma LastRoundScene()
    ensures StrikeScene(Refresh(LastRoundOfLights()))
  {
    var g := LastRoundOfLights();
    var g1 := Refresh(g);
    assert forall j :: 0 <= j < 4 ==> g1.players[j] == g.players[j].(suspicion := g1.players[j].suspicion);
  }

  lemma StruckIsAfterStrike(ps: seq<Player>)
    requires StruckRoster(Refresh(LastRoundOfLights()), ps)
    ensures SameRoster(ps, AfterStrike())
  {
    var g := LastRoundOfLights();
    var g1 := Refresh(g);
    assert forall j :: 0 <= j < 4 ==> g1.players[j].impostor == g.players[j].impostor && g1.players[j].tasks == g.players[j].tasks;
  }

  /** The tick before the win check: the lights expire and the impostors win; the roster is `AfterStrike`. */
  lemma LastRoundAdvance()
    ensures var r := Advance(LastRoundOfLights(), StrikeFirst());
      && r.gameOver && r.winner == Some(Impostors) && SameRoster(r.players, AfterStrike())
  {
    var g := LastRoundOfLights();
    var g1 := Refresh(g);
    LastRoundScene();
    StrikePass(g1);
    var a := AgentPass(g1, 0, StrikeFirst());
    StruckIsAfterStrike(a.players);
    assert Advance(g, StrikeFirst()) == ProcessSabotage(a);
  }

  /**
   * In the tick where the lights sabotage expires, the impostor also kills
   * the only crewmate with a task left. The sabotage step ends the game for
   * the impostors, and the win check that follows hands it to the crew.
   */
  lemma SabotageWinOverwritten()
    ensures !WinReached(LastRoundOfLights())
    ensures Advance(LastRoundOfLights(), StrikeFirst()).winner == Some(Impostors)
    ensures TickAsWritten(LastRoundOfLights(), StrikeFirst()).winner == Some(Crewmates)
    ensures TickAsWritten(LastRoundOfLights(), StrikeFirst()).reason == Some(TasksCompleted)
    ensures Tick(LastRoundOfLights(), StrikeFirst()).winner == Some(Impostors)
  {
    LastRoundOpen();
    LastRoundAdvance();
    var r := Advance(LastRoundOfLights(), StrikeFirst());
    SameRosterSameCounts(r.players, AfterStrike());
    AfterStrikeCounts();
  }
}

=== FILE: turns.dfy ===
/**
 * One bot's turn in freeplay in the browser engine: the body report, the
 * emergency call, the elimination, and the crew and impostor turns that
 * choose between them.
 *
 * Every `chance(...)` and `rand(...)` the engine rolls during a turn is a
 * field of `Dice`; the probabilities themselves are not modelled.
 */
module Turns {
  import opened Util
  import opened Rooms
  import opened Agents
  import opened SabotageRules
  import opened Game

  datatype Dice = Dice(
    report: bool,        // report a body found here
    repair: bool,        // work on the sabotage in a fix room
    fixPick: nat,        // which fix room to head for
    complete: bool,      // finish the task at hand
    wanderPick: nat,     // corridor for a random walk
    emergency: bool,     // call an emergency meeting
    sabotage: bool,      // arm a sabotage
    kind: SabotageKind,  // which one
    kill: bool,          // strike a crewmate in the room
    victimPick: nat,     // which one
    vent: bool,          // use a vent
    ventPick: nat,       // to where
    chase: bool,         // head for a room with crew in it
    chasePick: nat)      // which one

  /** Rolls that all fail: the turn takes every fallback branch. */
  const Unlucky := Dice(false, false, 0, false, 0, false, false, Lights, false, 0, false, 0, false, 0)

  /** `q` is `p` after its own move: same role, not revived, tasks only advance. */
  predicate Advances(p: Player, q: Player) {
    q.impostor == p.impostor && (!p.alive ==> !q.alive) && TasksAdvance(p.tasks, q.tasks)
  }

  function SetPlayer(g: GameState, i: nat, p: Player): (r: GameState)
    requires i < |g.players|
    ensures r == g.(players := g.players[i := p])
    ensures Advances(g.players[i], p) ==> Evolves(g, r)
  {
    g.(players := g.players[i := p])
  }

  /** Moving a player keeps the roster. */
  lemma MoveEvolves(g: GameState, i: nat, q: Player)
    requires i < |g.players| && Moved(g.players[i], q)
    ensures Evolves(g, SetPlayer(g, i, q))
  {
    var p := g.players[i];
    assert q.tasks == p.tasks;
  }

  // ---------------------------------------------------------------------
  // Meetings called from freeplay

  /**
   * `reportBody`: the body is marked reported, a discussion opens with timer
   * 3 naming the reporter and the victim, and any sabotage is called off.
   */
  function ReportBody(g: GameState, reporter: nat, b: nat): (r: GameState)
    requires b < |g.bodies|
    ensures |r.bodies| == |g.bodies| && r.bodies[b] == g.bodies[b].(reported := true)
    ensures forall k :: 0 <= k < |g.bodies| && k != b ==> r.bodies[k] == g.bodies[k]
    ensures r.phase == MeetingDiscussion
    ensures r.meeting == Some(Meeting(BodyReported, 3, reporter, Some(g.bodies[b].victim), [], None))
    ensures r.alarm == g.alarm.(active := None)
    ensures r == g.(bodies := r.bodies, phase := r.phase, meeting := r.meeting, alarm := r.alarm)
  {
    g.(bodies := g.bodies[b := g.bodies[b].(reported := true)],
       phase := MeetingDiscussion,
       meeting := Some(Meeting(BodyReported, 3, reporter, Some(g.bodies[b].victim), [], None)),
       alarm := g.alarm.(active := None))
  }

  /** May player `i` call an emergency meeting now (before the roll)? */
  predicate CanCallEmergency(g: GameState, i: nat)
    requires i < |g.players|
  {
    g.players[i].emergencyLeft > 0 && g.alarm.active.None? && g.meetingCooldown == 0
  }

  /**
   * `maybeCallEmergency`: a player with a call left, no sabotage running and
   * the meeting cooldown elapsed may open a discussion with timer 3; doing so
   * uses up one call and restarts the meeting cooldown at 8.
   */
  function MaybeCallEmergency(g: GameState, i: nat, roll: bool): (r: GameState)
    requires i < |g.players|
    ensures Evolves(g, r)
    ensures !(CanCallEmergency(g, i) && roll) ==> r == g
    ensures CanCallEmergency(g, i) && roll ==>
      && r.players == g.players[i := g.players[i].(emergencyLeft := g.players[i].emergencyLeft - 1)]
      && r.phase == MeetingDiscussion
      && r.meeting == Some(Meeting(EmergencyCalled, 3, i, None, [], None))
      && r.meetingCooldown == 8
      && r == g.(players := r.players, phase := r.phase, meeting := r.meeting, meetingCooldown := r.meetingCooldown)
  {
    if !CanCallEmergency(g, i) || !roll then g
    else
      var p := g.players[i];
      g.(players := g.players[i := p.(emergencyLeft := p.emergencyLeft - 1)],
         phase := MeetingDiscussion,
         meeting := Some(Meeting(EmergencyCalled, 3, i, None, [], None)),
         meetingCooldown := 8)
  }

  // ---------------------------------------------------------------------
  // Elimination

  /** Player `j` sees the kill: alive, in the killer's room, and not the killer. */
  predicate Witness(ps: seq<Player>, j: nat, killer: nat, room: Room)
    requires j < |ps|
  {
    ps[j].alive && ps[j].room == room && j != killer
  }

  /** A witness remembers the killer and raises its suspicion of the killer by 12. */
  function Witnessed(p: Player, killer: nat): (q: Player)
    ensures q.seenKillBy == Some(killer) && Score(q, killer) == Score(p, killer) + 12.0
    ensures q == p.(seenKillBy := q.seenKillBy, suspicion := q.suspicion)
  {
    MarkSuspicion(p.(seenKillBy := Some(killer)), killer, 12.0)
  }

  /**
   * The kill branch of `impostorTurn`: the victim dies, a fresh unreported
   * body is left in the room, the killer's cooldown becomes 3, and every
   * other living player in the room becomes a witness.
   */
  function Eliminate(g: GameState, killer: nat, victim: nat): (r: GameState)
    requires killer < |g.players| && victim < |g.players| && killer != victim
    requires g.players[victim].alive && g.players[victim].room == g.players[killer].room
    ensures |r.players| == |g.players|
    ensures !r.players[victim].alive
    ensures r.bodies == g.bodies + [Body(victim, g.players[killer].room, false)]
    ensures r.players[killer] == g.players[killer].(killCooldown := 3)
    ensures forall j :: 0 <= j < |g.players| && j != victim && Witness(g.players, j, killer, g.players[killer].room) ==>
      && r.players[j] == Witnessed(g.players[j], killer)
      && Score(r.players[j], killer) > Score(g.players[j], killer)
    ensures forall j :: 0 <= j < |g.players| && j != victim && j != killer && !Witness(g.players, j, killer, g.players[killer].room) ==>
      r.players[j] == g.players[j]
    ensures r.players[victim] == g.players[victim].(alive := false)
    ensures r == g.(players := r.players, bodies := r.bodies)
    ensures Evolves(g, r)
  {
    var room := g.players[killer].room;
    var ps := g.players[victim := g.players[victim].(alive := false)];
    var ps := ps[killer := ps[killer].(killCooldown := 3)];
    var ps := seq(|ps|, j requires 0 <= j < |ps| =>
                if Witness(ps, j, killer, room) then Witnessed(ps[j], killer) else ps[j]);
    g.(players := ps, bodies := g.bodies + [Body(victim, room, false)])
  }

  // ---------------------------------------------------------------------
  // Crew turn

  /** The first unreported body in `room`, as `bodies.find(...)`. */
  function BodyIn(bodies: seq<Body>, room: Room): (r: Option<nat>)
    ensures r.None? <==> forall k :: 0 <= k < |bodies| ==> bodies[k].reported || bodies[k].room != room
    ensures r.Some? ==> r.value < |bodies| && !bodies[r.value].reported && bodies[r.value].room == room
  {
    if |bodies| == 0 then None
    else if !bodies[0].reported && bodies[0].room == room then Some(0)
    else
      match BodyIn(bodies[1..], room)
      case None => None
      case Some(k) => Some(k + 1)
  }

  /** With a sabotage running: repair it in a fix room if the roll says so, else head for a fix room. */
  function CrewOnAlarm(g: GameState, i: nat, d: Dice): (r: GameState)
    requires i < |g.players| && g.alarm.active.Some?
    ensures Evolves(g, r)
    ensures r == g.(players := r.players, alarm := r.alarm)
    ensures r.alarm.active.Some? && r.alarm.cooldown == g.alarm.cooldown
    ensures forall j :: 0 <= j < |g.players| && j != i ==> r.players[j] == g.players[j]
    ensures g.players[i].room in FixRooms(g.alarm.active.value.kind) && d.repair ==>
      r.alarm.active.value == Repair(g.alarm.active.value) && r.players == g.players
    ensures !(g.players[i].room in FixRooms(g.alarm.active.value.kind) && d.repair) ==>
      && r.alarm == g.alarm
      && StepToward(g.players[i].room, r.players[i].room, Pick(FixRooms(g.alarm.active.value.kind), d.fixPick))
    ensures Moved(g.players[i], r.players[i])
  {
    var p := g.players[i];
    var s := g.alarm.active.value;
    if p.room in FixRooms(s.kind) && d.repair then
      g.(alarm := g.alarm.(active := Some(Repair(s))))
    else
      HeadFor(g, i, Pick(FixRooms(s.kind), d.fixPick))
  }

  /** Bot `i` takes one corridor towards `target`, or stays when already there. */
  function HeadFor(g: GameState, i: nat, target: Room): (r: GameState)
    requires i < |g.players|
    ensures r == g.(players := r.players)
    ensures |r.players| == |g.players| && Evolves(g, r)
    ensures forall j :: 0 <= j < |g.players| && j != i ==> r.players[j] == g.players[j]
    ensures Moved(g.players[i], r.players[i])
    ensures StepToward(g.players[i].room, r.players[i].room, target)
  {
    var q := MoveToward(g.players[i], target, g.round);
    MoveEvolves(g, i, q);
    SetPlayer(g, i, q)
  }

  /** `room` is where `p` goes on a stroll: towards its next task, or down any corridor when none is left. */
  predicate Strolled(p: Player, room: Room) {
    match NextTaskRoom(p)
    case Some(target) => StepToward(p.room, room, target)
    case None => Linked(p.room, room)
  }

  /** Head for the next task, or wander when none is left, then perhaps call an emergency meeting. */
  function CrewStroll(g: GameState, i: nat, d: Dice): (r: GameState)
    requires i < |g.players|
    ensures Evolves(g, r)
    ensures r == g.(players := r.players, phase := r.phase, meeting := r.meeting, meetingCooldown := r.meetingCooldown)
    ensures r.phase == g.phase || r.phase == MeetingDiscussion
    ensures forall j :: 0 <= j < |g.players| && j != i ==> r.players[j] == g.players[j]
    ensures Strolled(g.players[i], r.players[i].room)
  {
    var q := Stroll(g.players[i], d.wanderPick, g.round);
    MoveEvolves(g, i, q);
    var g1 := SetPlayer(g, i, q);
    var r := MaybeCallEmergency(g1, i, d.emergency);
    EvolvesTransitive(g, g1, r);
    r
  }

  /** The move of a stroll: towards the next task, or down the corridor `k` picks when none is left. */
  function Stroll(p: Player, k: nat, round: int): (q: Player)
    ensures Moved(p, q) && Strolled(p, q.room)
  {
    match NextTaskRoom(p)
    case Some(target) => MoveToward(p, target, round)
    case None => RandomWalk(p, k, round)
  }

  /**
   * With no sabotage running: finish a task here if the roll says so, else
   * stroll on.
   */
  function CrewChores(g: GameState, i: nat, d: Dice): (r: GameState)
    requires i < |g.players|
    ensures Evolves(g, r)
    ensures r == g.(players := r.players, phase := r.phase, meeting := r.meeting, meetingCooldown := r.meetingCooldown)
    ensures r.phase == g.phase || r.phase == MeetingDiscussion
    ensures forall j :: 0 <= j < |g.players| && j != i ==> r.players[j] == g.players[j]
    ensures DoCrewTask(g.players[i], d.complete).1 ==>
      r == g.(players := r.players) && UndoneCount(r.players[i].tasks) + 1 == UndoneCount(g.players[i].tasks)
    ensures !DoCrewTask(g.players[i], d.complete).1 ==> Strolled(g.players[i], r.players[i].room)
    ensures Chores(g, i, d, r)
  {
    var (q, did) := DoCrewTask(g.players[i], d.complete);
    if did then SetPlayer(g, i, q)
    else CrewStroll(g, i, d)
  }

  /**
   * The chores branch of a crew turn: the alarm and the bodies stay; either
   * one task here is finished and freeplay goes on, or the bot strolls.
   */
  predicate Chores(g: GameState, i: nat, d: Dice, r: GameState)
    requires i < |g.players| && i < |r.players|
  {
    && r.alarm == g.alarm && r.bodies == g.bodies
    && (DoCrewTask(g.players[i], d.complete).1 ==>
          r.phase == g.phase && UndoneCount(r.players[i].tasks) + 1 == UndoneCount(g.players[i].tasks))
    && (!DoCrewTask(g.players[i], d.complete).1 ==> Strolled(g.players[i], r.players[i].room))
  }

  /** The sabotage branch of a crew turn: repair in a fix room when the roll says so, else head for the chosen fix room. */
  predicate OnAlarm(g: GameState, i: nat, d: Dice, r: GameState)
    requires i < |g.players| && i < |r.players| && g.alarm.active.Some?
  {
    var kind := g.alarm.active.value.kind;
    if g.players[i].room in FixRooms(kind) && d.repair then
      r.alarm.active == Some(Repair(g.alarm.active.value)) && r.players == g.players
    else
      StepToward(g.players[i].room, r.players[i].room, Pick(FixRooms(kind), d.fixPick))
  }

  /**
   * `crewTurn`: report a body found here if the roll says so; else deal with
   * a running sabotage; else do chores.
   */
  function CrewTurn(g: GameState, i: nat, d: Dice): (r: GameState)
    requires i < |g.players|
    ensures Evolves(g, r)
    ensures r.round == g.round && r.gameOver == g.gameOver && r.resolving == g.resolving
    ensures r.phase == g.phase || r.phase == MeetingDiscussion
    ensures forall j :: 0 <= j < |g.players| && j != i ==> r.players[j] == g.players[j]
    ensures BodyIn(g.bodies, g.players[i].room).Some? && d.report ==>
      r.phase == MeetingDiscussion && r.alarm.active.None? && r.players == g.players
    ensures (BodyIn(g.bodies, g.players[i].room).None? || !d.report) && g.alarm.active.Some? ==>
      && r.phase == g.phase && r.alarm.active.Some? && r.bodies == g.bodies
      && (!d.repair ==> r.alarm == g.alarm && Moved(g.players[i], r.players[i]))
      && OnAlarm(g, i, d, r)
    ensures (BodyIn(g.bodies, g.players[i].room).None? || !d.report) && g.alarm.active.None? ==> Chores(g, i, d, r)
  {
    var p := g.players[i];
    var found := BodyIn(g.bodies, p.room);
    if found.Some? && d.report then
      ReportBody(g, i, found.value)
    else if g.alarm.active.Some? then
      CrewOnAlarm(g, i, d)
    else
      CrewChores(g, i, d)
  }

  // ---------------------------------------------------------------------
  // Impostor turn

  /** Living crew in `room`, in roster order. */
  function CrewIn(ps: seq<Player>, room: Room, from: nat): (ids: seq<nat>)
    requires from <= |ps|
    ensures forall j: nat :: j in ids <==> from <= j < |ps| && ps[j].alive && !ps[j].impostor && ps[j].room == room
    decreases |ps| - from
  {
    if from == |ps| then []
    else
      var rest := CrewIn(ps, room, from + 1);
      if ps[from].alive && !ps[from].impostor && ps[from].room == room then [from] + rest else rest
  }

  /** Only who is alive, who is an impostor and who is where decide the crew in a room. */
  lemma CrewInSameRoster(ps: seq<Player>, qs: seq<Player>, room: Room, from: nat)
    requires from <= |ps| == |qs|
    requires forall j :: 0 <= j < |ps| ==>
      ps[j].alive == qs[j].alive && ps[j].impostor == qs[j].impostor && ps[j].room == qs[j].room
    ensures CrewIn(ps, room, from) == CrewIn(qs, room, from)
    decreases |ps| - from
  {
    if from < |ps| {
      CrewInSameRoster(ps, qs, room, from + 1);
    }
  }

  /** Rooms of the living crew, in roster order. */
  function CrewRooms(ps: seq<Player>): (rooms: seq<Room>)
    ensures forall r :: r in rooms <==> exists j :: 0 <= j < |ps| && ps[j].alive && !ps[j].impostor && ps[j].room == r
  {
    if |ps| == 0 then []
    else
      var rest := CrewRooms(ps[1..]);
      assert forall j :: 1 <= j < |ps| ==> ps[j] == ps[1..][j - 1];
      if ps[0].alive && !ps[0].impostor then [ps[0].room] + rest else rest
  }

  /** The start of `impostorTurn`: the kill cooldown ticks down and a sabotage may be armed. */
  function ImpostorPrelude(g: GameState, i: nat, d: Dice): (r: GameState)
    requires i < |g.players|
    ensures Evolves(g, r)
    ensures r == g.(players := r.players, alarm := r.alarm)
    ensures r.players == g.players[i := g.players[i].(killCooldown := CountDown(g.players[i].killCooldown))]
    ensures r.alarm == Trigger(g.alarm, d.sabotage, d.kind)
  {
    var p := g.players[i];
    SetPlayer(g, i, p.(killCooldown := CountDown(p.killCooldown))).(alarm := Trigger(g.alarm, d.sabotage, d.kind))
  }

  /**
   * The impostor's move: one corridor towards the room of a living crewmate
   * when the roll says chase and there is one, else a random corridor.
   */
  function Prowl(p: Player, ps: seq<Player>, d: Dice, round: int): (q: Player)
    ensures Moved(p, q)
    ensures Linked(p.room, q.room) || exists j :: 0 <= j < |ps| && ps[j].alive && !ps[j].impostor && ps[j].room == p.room
  {
    var rooms := CrewRooms(ps);
    if |rooms| > 0 && d.chase then MoveToward(p, Pick(rooms, d.chasePick), round)
    else RandomWalk(p, d.wanderPick, round)
  }

  /** Chase the crew (head for the room of a living crewmate) or wander, then perhaps call an emergency meeting. */
  function ImpostorChase(g: GameState, i: nat, d: Dice): (r: GameState)
    requires i < |g.players|
    ensures Evolves(g, r)
    ensures r == g.(players := r.players, phase := r.phase, meeting := r.meeting, meetingCooldown := r.meetingCooldown)
    ensures r.phase == g.phase || r.phase == MeetingDiscussion
    ensures r.players[i].killCooldown == g.players[i].killCooldown
    ensures forall j :: 0 <= j < |g.players| && j != i ==> r.players[j] == g.players[j]
  {
    var q := Prowl(g.players[i], g.players, d, g.round);
    MoveEvolves(g, i, q);
    var g1 := SetPlayer(g, i, q);
    var r := MaybeCallEmergency(g1, i, d.emergency);
    EvolvesTransitive(g, g1, r);
    r
  }

  /** No kill: perhaps hop through a vent (the turn ends there), else chase or wander. */
  function ImpostorRoam(g: GameState, i: nat, d: Dice): (r: GameState)
    requires i < |g.players|
    ensures Evolves(g, r)
    ensures r == g.(players := r.players, phase := r.phase, meeting := r.meeting, meetingCooldown := r.meetingCooldown)
    ensures r.phase == g.phase || r.phase == MeetingDiscussion
    ensures r.players[i].killCooldown == g.players[i].killCooldown
    ensures forall j :: 0 <= j < |g.players| && j != i ==> r.players[j] == g.players[j]
    ensures |Vents(g.players[i].room)| > 0 && d.vent ==> r.players[i].room in Vents(g.players[i].room) && r.phase == g.phase
  {
    var p := g.players[i];
    if |Vents(p.room)| > 0 && d.vent then
      var q := VentHop(p, d.ventPick, g.round);
      MoveEvolves(g, i, q);
      SetPlayer(g, i, q)
    else
      ImpostorChase(g, i, d)
  }

  /** A living crewmate shares the room of player `i`. */
  predicate CrewHere(ps: seq<Player>, i: nat)
    requires i < |ps|
  {
    exists j :: 0 <= j < |ps| && ps[j].alive && !ps[j].impostor && ps[j].room == ps[i].room
  }

  /**
   * What a kill of `victim` by `killer` leaves in `r`: the victim dead and
   * nobody else, a fresh unreported body in the killer's room, the killer's
   * cooldown at 3, the other living players in the room witnesses, and
   * everyone else as before.
   */
  predicate Slain(g: GameState, killer: nat, victim: nat, r: GameState)
    requires killer < |g.players| && victim < |g.players| && |r.players| == |g.players|
  {
    var room := g.players[killer].room;
    && r.bodies == g.bodies + [Body(victim, room, false)]
    && r.players[victim] == g.players[victim].(alive := false)
    && r.players[killer] == g.players[killer].(killCooldown := 3)
    && (forall j :: 0 <= j < |g.players| && j != victim && g.players[j].alive ==> r.players[j].alive)
    && (forall j :: 0 <= j < |g.players| && j != victim && Witness(g.players, j, killer, room) ==>
          r.players[j] == Witnessed(g.players[j], killer))
    && (forall j :: 0 <= j < |g.players| && j != victim && j != killer && !Witness(g.players, j, killer, room) ==>
          r.players[j] == g.players[j])
  }

  /** The kill branch of `impostorTurn`: the roll picks the victim among the living crew in the room. */
  function Strike(g: GameState, i: nat, pick: nat): (r: GameState)
    requires i < |g.players| && g.players[i].impostor && |CrewIn(g.players, g.players[i].room, 0)| > 0
    ensures Evolves(g, r) && r == g.(players := r.players, bodies := r.bodies)
    ensures |r.bodies| == |g.bodies| + 1
    ensures var v := r.bodies[|g.bodies|].victim;
      && v == Pick(CrewIn(g.players, g.players[i].room, 0), pick)
      && v < |g.players| && v != i
      && g.players[v].alive && !g.players[v].impostor && g.players[v].room == g.players[i].room
      && Slain(g, i, v, r)
  {
    var crew := CrewIn(g.players, g.players[i].room, 0);
    var v := Pick(crew, pick);
    assert v in crew;
    Eliminate(g, i, v)
  }

  /**
   * The kill of `impostorTurn`, read off the new body: with the cooldown at
   * most 1 before the turn and the roll, the victim is the crewmate the roll
   * picks among the living crew in the room; it is dead and nobody else
   * is, its body lies unreported in the room, the witnesses remember the
   * killer, and the killer's cooldown is 3.
   */
  predicate Killed(g: GameState, i: nat, d: Dice, r: GameState)
    requires i < |g.players| && |r.players| == |g.players| && |r.bodies| == |g.bodies| + 1
  {
    var v := r.bodies[|g.bodies|].victim;
    && v < |g.players| && v != i
    && g.players[v].alive && !g.players[v].impostor && g.players[v].room == g.players[i].room
    && !r.players[v].alive
    && g.players[i].killCooldown <= 1 && r.players[i].killCooldown == 3
    && r.phase == g.phase
    && d.kill && v == Pick(CrewIn(g.players, g.players[i].room, 0), d.victimPick)
    && Slain(g, i, v, r)
  }

  /** Only the killer's cooldown differs, so a kill reads the same on either roster. */
  lemma SlainAfterPrelude(g: GameState, g1: GameState, i: nat, v: nat, r: GameState)
    requires i < |g.players| && v < |g.players| && v != i && |g1.players| == |g.players| == |r.players|
    requires g1.bodies == g.bodies
    requires g1.players == g.players[i := g.players[i].(killCooldown := g1.players[i].killCooldown)]
    requires Slain(g1, i, v, r)
    ensures Slain(g, i, v, r)
  {
    var room := g.players[i].room;
    assert forall j :: 0 <= j < |g.players| ==> Witness(g1.players, j, i, room) == Witness(g.players, j, i, room);
  }

  /**
   * The kill of `impostorTurn`: the prelude, then, with the cooldown down to
   * 0, a crewmate here and the roll, the strike.
   */
  function Kill(g: GameState, i: nat, d: Dice): (r: GameState)
    requires i < |g.players| && g.players[i].impostor && g.players[i].killCooldown <= 1 && d.kill
    requires CrewHere(g.players, i)
    ensures Evolves(g, r)
    ensures r == g.(players := r.players, bodies := r.bodies, alarm := r.alarm)
    ensures |r.bodies| == |g.bodies| + 1 && Killed(g, i, d, r)
    ensures r.alarm == Trigger(g.alarm, d.sabotage, d.kind)
    ensures forall j :: 0 <= j < |g.players| && j != i && !g.players[j].alive ==> r.players[j] == g.players[j]
  {
    var g1 := ImpostorPrelude(g, i, d);
    KillAfterPrelude(g, i, d);
    var r := Strike(g1, i, d.victimPick);
    EvolvesTransitive(g, g1, r);
    r
  }

  /** After the prelude the crew in the room is still there, and the strike is the kill `Killed` describes. */
  lemma KillAfterPrelude(g: GameState, i: nat, d: Dice)
    requires i < |g.players| && g.players[i].impostor && g.players[i].killCooldown <= 1 && d.kill
    requires CrewHere(g.players, i)
    ensures var g1 := ImpostorPrelude(g, i, d);
      && |CrewIn(g1.players, g1.players[i].room, 0)| > 0
      && var r := Strike(g1, i, d.victimPick);
      && Killed(g, i, d, r)
      && forall j :: 0 <= j < |g.players| && j != i && !g.players[j].alive ==> r.players[j] == g.players[j]
  {
    var g1 := ImpostorPrelude(g, i, d);
    CrewAfterPrelude(g, i, d);
    var r := Strike(g1, i, d.victimPick);
    var v := r.bodies[|g.bodies|].victim;
    SlainAfterPrelude(g, g1, i, v, r);
    SlainKeepsDead(g, i, v, r);
  }

  /** The prelude keeps who is where, so the crew `impostorTurn` finds in the room is the crew before it. */
  lemma CrewAfterPrelude(g: GameState, i: nat, d: Dice)
    requires i < |g.players| && CrewHere(g.players, i)
    ensures var g1 := ImpostorPrelude(g, i, d);
      && CrewIn(g1.players, g1.players[i].room, 0) == CrewIn(g.players, g.players[i].room, 0)
      && |CrewIn(g.players, g.players[i].room, 0)| > 0
  {
    var g1 := ImpostorPrelude(g, i, d);
    CrewInSameRoster(g.players, g1.players, g.players[i].room, 0);
    var j :| 0 <= j < |g.players| && g.players[j].alive && !g.players[j].impostor && g.players[j].room == g.players[i].room;
    assert j in CrewIn(g.players, g.players[i].room, 0);
  }

  /** A kill leaves the players who were already dead as they were. */
  lemma SlainKeepsDead(g: GameState, killer: nat, victim: nat, r: GameState)
    requires killer < |g.players| && victim < |g.players| && |r.players| == |g.players|
    requires g.players[victim].alive && Slain(g, killer, victim, r)
    ensures forall j :: 0 <= j < |g.players| && j != killer && !g.players[j].alive ==> r.players[j] == g.players[j]
  {
  }

  /**
   * `impostorTurn`: after the prelude, kill a crewmate here if the cooldown
   * is 0 and the roll says so, and otherwise roam. The prelude moves nobody
   * and counts the cooldown down, so the test reads the same before it: a
   * cooldown of at most 1 and a crewmate in the room.
   */
  function ImpostorTurn(g: GameState, i: nat, d: Dice): (r: GameState)
    requires i < |g.players| && g.players[i].impostor
    ensures Evolves(g, r)
    ensures r.round == g.round && r.gameOver == g.gameOver && r.resolving == g.resolving
    ensures r.phase == g.phase || r.phase == MeetingDiscussion
    ensures r.bodies == g.bodies || |r.bodies| == |g.bodies| + 1
    ensures |r.bodies| == |g.bodies| + 1 ==> Killed(g, i, d, r)
    ensures g.players[i].killCooldown > 1 ==> r.bodies == g.bodies && r.players[i].killCooldown == g.players[i].killCooldown - 1
    ensures g.players[i].killCooldown <= 1 && d.kill && CrewHere(g.players, i) ==> |r.bodies| == |g.bodies| + 1
    ensures forall j :: 0 <= j < |g.players| && j != i && !g.players[j].alive ==> r.players[j] == g.players[j]
    ensures r.bodies == g.bodies ==> forall j :: 0 <= j < |g.players| && j != i ==> r.players[j] == g.players[j]
    ensures r.alarm == Trigger(g.alarm, d.sabotage, d.kind)
  {
    if g.players[i].killCooldown <= 1 && d.kill && CrewHere(g.players, i) then
      Kill(g, i, d)
    else
      var g1 := ImpostorPrelude(g, i, d);
      var r := ImpostorRoam(g1, i, d);
      EvolvesTransitive(g, g1, r);
      r
  }
}

=== FILE: util.dfy ===
/** Small helpers shared by every module of the model. */
module Util {

  /** A value that may be absent: the model's stand-in for `null` / `None`. */
  datatype Option<+T> = None | Some(value: T) {
    function GetOr(default: T): T {
      match this
      case Some(v) => v
      case None => default
    }
  }

  /** `Math.max(0, n - 1)`: a counter that counts down and stops at zero. */
  function CountDown(n: nat): (r: nat)
    ensures n == 0 ==> r == 0
    ensures n > 0 ==> r + 1 == n
  {
    if n == 0 then 0 else n - 1
  }
}
